=== FILE: README.md ===
# Tumour monitoring engine — a Dafny model

This project models the server-side core of a medical-imaging tumour-tracking service.
The core has four parts:
- the **monitoring engine**: the tumour-volume trend of a patient, the growth classifier over the last 90 days, the alert ledger with its at-most-one-unresolved-alert-per-(patient, type) rule, alert resolution, and the patient dashboard;
- the **upload handlers**: file-format validation per modality, the order of their checks, and the stored file extension;
- the **analysis handler**: its scan guards, the routing of a scan to the MRI, CT or X-ray analyzer, the defaults for missing result fields, and the analysis status;
- the **segmentation handler**: its once-per-scan guard and the simulated segmentation.

The database is a value `Db(patients, scans, segmentations, alerts)`. Each table is a sequence in insertion order, so a query's `.first()` is the first match in that order. Every handler is a pure function from the store and the request to a `Result`: either `Ok` with the new store and the response, or `Err(HttpError(status, detail))`. Nothing is stored on any error path.

Inputs the handlers get from outside are parameters:
- the clock (`now`);
- generated ids and random file-name tokens;
- the size of the written file;
- the outcome of loading a NIfTI image;
- the analyzers;
- the two-decimal rendering of a growth rate (`fmt`).

Times are integers in microseconds. `timedelta.days` is floor division by the microseconds in a day. Volumes, rates and thresholds are `real`. Upper- and lower-casing are ASCII-only.

Modules, following the source files:
- `Outcomes`, `Seqs`, `Text`: shared results, sequence operations (filter, first match, insertion sort), casing, suffixes, and `os.path.splitext`.
- `Records`: the tables of `models.py` and the lookups by id.
- `Trend`, `Growth`, `Ledger`, `Monitor`: `monitor.py`.
- `MedicalFormats`, `UploadEndpoint`: `upload.py`.
- `SegmentEndpoint`: `segment.py`.
- `AnalyzeEndpoint`: `analyze.py`.
- `Lifecycle`: properties that span several handlers, and the two findings below.

Two behaviours a reader might expect differently are modelled as the code has them:
- **Re-resolving an alert.** Resolving an already resolved alert does not keep its first `resolved_at`: the code overwrites it on every call (`Ledger.ReResolveOverwritesTime`).
- **Ties in scan date.** Points with equal scan dates are not guaranteed to stay in insertion order: the SQL `ORDER BY scan_date` leaves the order of ties unspecified, so the contracts claim no tie order (the sort used in the model happens to be stable).

## Model

| member | source | states |
|---|---|---|
| Records.DaysBetween | backend/app/api/v1/endpoints/monitor.py:54 | `(later - earlier).days` is the whole number of days rounded towards minus infinity: d days ≤ the gap < d + 1 days |
| Records.FindPatient | backend/app/api/v1/endpoints/monitor.py:82 | the patient lookup by the external identifier returns a patient with that identifier, and returns none exactly when no patient has it |
| Records.FindScan | backend/app/api/v1/endpoints/analyze.py:21 | the scan lookup by primary key returns a scan with that id, and returns none exactly when no scan has it |
| Records.FindSegmentation | backend/app/api/v1/endpoints/analyze.py:29 | the segmentation lookup for a scan returns a segmentation of that scan, and returns none exactly when the scan has no segmentation |
| Seqs.SortBy | backend/app/api/v1/endpoints/monitor.py:18 | `ORDER BY` as a sort: the result is ordered by the key and is a permutation of the input (same multiset) |
| Trend.JoinRows | backend/app/api/v1/endpoints/monitor.py:16-18 | the rows of the scan–segmentation inner join, restricted to one patient column value, are exactly the joined pairs |
| Trend.RowsPerSegmentation | backend/app/api/v1/endpoints/monitor.py:16-18 | a scan contributes as many join rows as there are segmentations with its id |
| Trend.RowsOfSingle | backend/app/api/v1/endpoints/monitor.py:16-18 | with at most one segmentation per scan, a scan contributes one join row when segmented and none otherwise |
| Trend.JoinRowsPerSegmentedScan | backend/app/api/v1/endpoints/monitor.py:16-18 | with at most one segmentation per scan, the join has exactly one row per segmented scan under the patient column value, which is what the "fewer than two points" rule counts |
| Trend.CalculateTumorTrend | backend/app/api/v1/endpoints/monitor.py:13-31 | the trend holds exactly the patient's segmented scans, each join row once (same multiset as the join, which has one row per segmentation of each scan), in non-decreasing scan-date order, and is a permutation of the join rows |
| Trend.TrendEmptyIffNothingSegmented | backend/app/api/v1/endpoints/monitor.py:16-31 | the trend is empty (not an error) exactly when none of the patient's scans has a segmentation |
| Growth.RecentPoints | backend/app/api/v1/endpoints/monitor.py:36-43 | the window holds exactly the joined points dated no earlier than 90 days before `now` (inclusive), each as often as the join yields it (same multiset as the filtered join), ordered by scan date |
| Growth.GrowthRate | backend/app/api/v1/endpoints/monitor.py:54-56 | the rate times the month span equals the volume difference when the span is positive; the rate is 0 when the span is ≤ 0, in particular for points less than a whole day apart |
| Growth.Classify | backend/app/api/v1/endpoints/monitor.py:59-74 | at most one candidate; rapid/high exactly when rate > 0.1·first volume; moderate/medium exactly when 0.05·first < rate ≤ 0.1·first; the message names the type and the rendered rate |
| Growth.ClassifyWindow | backend/app/api/v1/endpoints/monitor.py:47-74 | fewer than two points give no candidate; with two or more there is a candidate exactly when the rate between the first and last point exceeds 10% or 5% of the first volume; its rate is that rate, its type and severity follow the thresholds, and its message is the type's text with the rendered rate |
| Growth.CheckForAlerts | backend/app/api/v1/endpoints/monitor.py:33-76 | at most one candidate; none when fewer than two segmented scans fall in the 90-day window; otherwise one exactly when the growth from the earliest to the latest of them exceeds a threshold, rapid/high exactly above 10% of the earliest volume and moderate/medium otherwise, with the type's text and the rendered rate as its message |
| Growth.CandidateFromWindowEndpoints | backend/app/api/v1/endpoints/monitor.py:49-56 | a candidate is classified from two window points that bound every date in the window; conversely, when every such pair shows growth above a threshold, a candidate is produced |
| Growth.NoGrowthNoAlert | backend/app/api/v1/endpoints/monitor.py:59-74 | a zero or negative rate never yields a candidate when the first volume is non-negative |
| Growth.ZeroBaselineGrowthIsRapid | backend/app/api/v1/endpoints/monitor.py:59-65 | with a first volume of 0 every positive rate is rapid |
| Growth.ClassifyMonotone | backend/app/api/v1/endpoints/monitor.py:59-74 | a larger rate never yields a milder classification (none < moderate < rapid) |
| Growth.SameDayPointsNeverAlert | backend/app/api/v1/endpoints/monitor.py:54-56 | first and last points less than a day apart give no alert (non-negative first volume) |
| Growth.InteriorPointsIgnored | backend/app/api/v1/endpoints/monitor.py:49-56 | only the first and last points of the window decide the result |
| Growth.LargerLastVolumeNeverMilder | backend/app/api/v1/endpoints/monitor.py:54-74 | raising the last volume, dates fixed, never makes the classification milder |
| Growth.RapidExample | backend/app/api/v1/endpoints/monitor.py:59-65 | 100 cc then 115 cc thirty days later gives rapid_growth/high at 15 cc/month |
| Growth.ModerateExample | backend/app/api/v1/endpoints/monitor.py:67-74 | 100 cc then 107 cc thirty days later gives moderate_growth/medium at 7 cc/month |
| Growth.QuietExample | backend/app/api/v1/endpoints/monitor.py:59-74 | 100 cc then 104 cc thirty days later gives no candidate |
| Ledger.OpenAlert | backend/app/api/v1/endpoints/monitor.py:160-164 | the dedup query finds an unresolved alert of the patient and type, and finds none exactly when there is none |
| Ledger.RecordCandidates | backend/app/api/v1/endpoints/monitor.py:157-174 | recording only appends; at most one alert per candidate; each created alert is an unresolved record of a candidate for the patient, created now |
| Ledger.RecordKeepsAtMostOneOpen | backend/app/api/v1/endpoints/monitor.py:158-174 | recording preserves "at most one unresolved alert per (patient, type)" |
| Ledger.RecordKeepsUniqueIds | backend/app/api/v1/endpoints/monitor.py:167-173 | recording with fresh ids keeps alert ids unique |
| Ledger.RecordCoversCandidates | backend/app/api/v1/endpoints/monitor.py:158-174 | afterwards every candidate's (patient, type) has an unresolved alert, and an alert was created only where none was unresolved |
| Ledger.RecordWithOneId | backend/app/api/v1/endpoints/monitor.py:158-174 | for a call with at most one candidate, all of the above at once |
| Ledger.RecordCoveredIsNoOp | backend/app/api/v1/endpoints/monitor.py:160-166 | candidates that are already covered by unresolved alerts change nothing and create nothing |
| Ledger.Resolve | backend/app/api/v1/endpoints/monitor.py:184-197 | 404 "Alert with ID … not found" exactly when the id is unknown; otherwise the alert becomes resolved at `now` whatever its previous state, and no other alert changes |
| Ledger.ResolveKeepsInvariants | backend/app/api/v1/endpoints/monitor.py:194-196 | resolving keeps unique ids and at most one unresolved alert per (patient, type) |
| Ledger.ResolvedStaysResolved | backend/app/api/v1/endpoints/monitor.py:166-195 | neither resolving nor recording ever reopens a resolved alert |
| Ledger.ReResolveOverwritesTime | backend/app/api/v1/endpoints/monitor.py:194-195 | resolving twice leaves the second call's time in `resolved_at` |
| Ledger.AllAlerts | backend/app/api/v1/endpoints/monitor.py:140 | exactly the patient's alerts, newest first, a permutation of the filtered ledger |
| Ledger.ActiveAlerts | backend/app/api/v1/endpoints/monitor.py:101-104 | exactly the patient's unresolved alerts, newest first, a permutation of the filtered ledger |
| Monitor.ScansNewestFirst | backend/app/api/v1/endpoints/monitor.py:90 | exactly the patient's scans, each once per stored row (same multiset as the filtered table), newest first |
| Monitor.LatestSegmentation | backend/app/api/v1/endpoints/monitor.py:93-98 | the segmentation of the first (newest) scan, or none when there are no scans or that scan has none |
| Monitor.DashboardFor | backend/app/api/v1/endpoints/monitor.py:89-115 | the dashboard's scans (the patient's scans, newest first), latest segmentation (that of the first scan), alerts (the patient's unresolved alerts, newest first) and trend (the joined points, by scan date), each as the same multiset as the rows the source's query selects |
| Monitor.LatestSegmentationIsOfNewestScan | backend/app/api/v1/endpoints/monitor.py:93-98 | the latest segmentation belongs to a scan at least as recent as every scan of the patient; it is none exactly when the patient has no scans or that newest scan has no segmentation, whatever older scans have |
| Monitor.NewestScanDominates | backend/app/api/v1/endpoints/monitor.py:90-98 | the first of the patient's scans, newest first, is theirs and at least as recent as all of them; the list is empty exactly when they have no scans |
| Monitor.GetPatientDashboard | backend/app/api/v1/endpoints/monitor.py:78-115 | 404 exactly for an unknown patient; otherwise the dashboard, with the trend selected by the external identifier |
| Monitor.GetPatientDashboardCorrected | backend/app/api/v1/endpoints/monitor.py:78-115 | 404 with the patient-not-found detail exactly for an unknown patient; otherwise the looked-up patient's dashboard with the trend selected by the internal id |
| Monitor.GetTumorTrend | backend/app/api/v1/endpoints/monitor.py:117-128 | 404 with the patient-not-found detail exactly for an unknown patient; otherwise the points joined on the external identifier, each as often as the join yields it, ordered by scan date |
| Monitor.GetTumorTrendCorrected | backend/app/api/v1/endpoints/monitor.py:117-128 | 404 with the patient-not-found detail exactly for an unknown patient; otherwise the points joined on the patient's internal id, each as often as the join yields it, ordered by scan date |
| Monitor.GetPatientAlerts | backend/app/api/v1/endpoints/monitor.py:130-141 | 404 with the patient-not-found detail exactly for an unknown patient; otherwise all of the patient's alerts, resolved or not, each once per stored row (same multiset), newest first |
| Monitor.CheckAlertsFor | backend/app/api/v1/endpoints/monitor.py:153-182 | the candidates found are those of the growth classifier on the scans under `scanKey`; at most one candidate found, at most that many alerts created; only alerts are added; each created alert is unresolved, created now, for the patient, with a candidate's type, severity and message |
| Monitor.CheckAlertsKeepsLedgerInvariants | backend/app/api/v1/endpoints/monitor.py:158-176 | check-alerts keeps at most one unresolved alert per (patient, type), and keeps ids unique; afterwards every found candidate is covered |
| Monitor.CheckPatientAlerts | backend/app/api/v1/endpoints/monitor.py:143-182 | 404 exactly for an unknown patient; otherwise the check on the scans keyed by the external identifier |
| Monitor.CheckPatientAlertsCorrected | backend/app/api/v1/endpoints/monitor.py:143-182 | the check on the scans keyed by the internal id |
| Monitor.ResolveAlert | backend/app/api/v1/endpoints/monitor.py:184-197 | 404 "Alert with ID … not found" exactly for an unknown alert id; otherwise the alert with that id (ids unique) becomes resolved at `now`, every other alert is unchanged, and the other tables are untouched |
| Monitor.CheckAlertsTwiceCreatesOnce | backend/app/api/v1/endpoints/monitor.py:158-176 | a second check-alerts at the same time creates nothing and leaves the store unchanged |
| Text.Lower | backend/app/api/v1/endpoints/upload.py:37 | `str.lower` on ASCII: same length, every letter lowered, nothing else changed |
| Text.Upper | backend/app/api/v1/endpoints/upload.py:28 | `str.upper` on ASCII: same length, every letter raised, nothing else changed |
| Text.Extension | backend/app/api/v1/endpoints/upload.py:84 | `os.path.splitext(p)[1]`: non-empty exactly when the last path component has a '.' preceded by a non-dot character in that component, and then the suffix from the last '.', with no dot or slash after it; otherwise empty (so a leading-dot name such as ".nii" has none) |
| Text.ExtensionOfJoin | backend/app/api/v1/endpoints/upload.py:84 | the extension of `stem + ext` is `ext` when `ext` is a '.' followed by no '.' or '/', and the last path component of the stem has a character other than '.' |
| MedicalFormats.ParseModality | backend/app/api/v1/endpoints/upload.py:56-62 | the modality is recognised exactly when its upper-cased form is MRI, CT or XRAY |
| MedicalFormats.ValidateForModality | backend/app/api/v1/endpoints/upload.py:19-37 | false for any other modality; otherwise true exactly when the lower-cased name ends with one of the modality's suffixes |
| MedicalFormats.ValidateVolumeFile | backend/app/api/v1/endpoints/segment.py:23-26 | true exactly when the lower-cased name ends with .nii.gz, .nii, .dcm, .dicom, .mha or .mhd |
| MedicalFormats.StoredExtension | backend/app/api/v1/endpoints/upload.py:84-86 | ".nii.gz" whenever the name ends with that exactly (case-sensitively); otherwise the `splitext` extension: non-empty exactly when the last path component has a '.' after a non-dot character, and then the suffix from the last '.' |
| MedicalFormats.MriCtAndVolumeValidatorsAgree | backend/app/api/v1/endpoints/upload.py:22-24 | MRI and CT accept the same names, the same ones the segmentation upload accepts |
| MedicalFormats.ValidationIgnoresCase | backend/app/api/v1/endpoints/upload.py:37 | upper- or lower-casing the file name, or lower-casing the modality, never changes the verdict |
| MedicalFormats.XrayRejectsNifti | backend/app/api/v1/endpoints/upload.py:26 | X-ray rejects every .nii and .nii.gz name |
| MedicalFormats.VolumeModalitiesRejectJpeg | backend/app/api/v1/endpoints/upload.py:22-24 | MRI and CT reject every .jpg name |
| MedicalFormats.NiftiGzValidForMri | backend/app/api/v1/endpoints/upload.py:37 | any name ending in ".nii.gz", in any case, is valid for MRI |
| MedicalFormats.UpperCaseNiftiStoredAsGz | backend/app/api/v1/endpoints/upload.py:84-86 | every name ending in ".NII.GZ", whatever precedes it, validates for MRI but is stored with the extension ".GZ" |
| MedicalFormats.StoredExtensionOfPlainName | backend/app/api/v1/endpoints/upload.py:84-86 | a name `stem + ext`, with `ext` a listed suffix and a non-dot character in the stem's last path component, is stored with `ext` |
| MedicalFormats.DotNiiStoredWithoutExtension | backend/app/api/v1/endpoints/upload.py:84-86 | the name ".nii" passes MRI validation but is stored with no extension, because `splitext` counts a leading dot as part of the stem |
| UploadEndpoint.StoredPath | backend/app/api/v1/endpoints/upload.py:88-89 | the stored path ends with the stored extension |
| UploadEndpoint.UploadImage | backend/app/api/v1/endpoints/upload.py:39-124 | the checks run in order (no filename 400, modality 400, format 400 with the X-ray or the volume message, unknown patient 404); the upload succeeds exactly when all pass, and then one scan is appended with the internal patient key, the upper-cased modality and the stored extension |
| UploadEndpoint.StoredModalityIsCanonical | backend/app/api/v1/endpoints/upload.py:111 | the stored modality is exactly "MRI", "CT" or "XRAY", whatever case the form used |
| SegmentEndpoint.UploadScan | backend/app/api/v1/endpoints/segment.py:81-153 | the checks run in order (no filename 400, format 400, unknown patient 404); on success one scan is appended with the internal patient key and the modality as submitted |
| SegmentEndpoint.SimulateTumorSegmentation | backend/app/api/v1/endpoints/segment.py:28-79 | cc × 1000 = mm³ on every branch; a loaded NIfTI gives its voxel count at 0.85 confidence; the load-failure fallback gives 35 cc at 0.75; other files give 42.7 cc at 0.82; the mask is a .nii.gz |
| SegmentEndpoint.ProcessSegmentation | backend/app/api/v1/endpoints/segment.py:155-199 | 404 for an unknown scan, 400 when a segmentation exists; it succeeds exactly otherwise, appending one "TumorTrace" segmentation that the lookup then finds |
| SegmentEndpoint.ProcessKeepsOneSegmentationPerScan | backend/app/api/v1/endpoints/segment.py:166-189 | processing keeps at most one segmentation per scan |
| SegmentEndpoint.ProcessTwiceIsRefused | backend/app/api/v1/endpoints/segment.py:166-172 | a second processing of the same scan is refused with 400 |
| SegmentEndpoint.GetSegmentation | backend/app/api/v1/endpoints/segment.py:201-219 | 404 exactly when the scan has no segmentation; otherwise the response of one of its segmentations |
| SegmentEndpoint.ProcessThenGet | backend/app/api/v1/endpoints/segment.py:155-219 | reading after processing returns exactly the processing response |
| AnalyzeEndpoint.Dispatch | backend/app/api/v1/endpoints/analyze.py:37-53 | no analyzer exactly for an unrecognised upper-cased modality; otherwise the analyzer of that modality is called with the scan's file path, the scan type for MRI and the body part for CT and X-ray |
| AnalyzeEndpoint.Analyze | backend/app/api/v1/endpoints/analyze.py:13-88 | 404 for an unknown scan, 400 when a segmentation exists, 500 "Analysis failed: 400: Unsupported modality: …" for an unsupported modality, 500 "Analysis failed: …" when the analyzer raises; otherwise one segmentation built from the fields is appended and reported "completed" with the canonical modality |
| AnalyzeEndpoint.AnalyzeCorrected | backend/app/api/v1/endpoints/analyze.py:49-53 | the unsupported modality answers 400 "Unsupported modality: …", so a 500 only reports an analyzer failure |
| AnalyzeEndpoint.AnalyzeCorrectedAgreesOnSupported | backend/app/api/v1/endpoints/analyze.py:37-88 | the two versions agree whenever the scan is unknown, already analysed, or of a supported modality, so they differ only on unanalysed scans of an unsupported modality |
| AnalyzeEndpoint.PetErrorTexts | backend/app/api/v1/endpoints/analyze.py:49-53 | the 500 for the modality "PET" has detail "Analysis failed: 400: Unsupported modality: PET" |
| AnalyzeEndpoint.AnalyzerSeesRoutingHint | backend/app/api/v1/endpoints/analyze.py:40-48 | a successful analysis called the MRI analyzer with the scan type, and the CT or X-ray analyzer with the body part |
| AnalyzeEndpoint.EmptyAnalyzerResultUsesDefaults | backend/app/api/v1/endpoints/analyze.py:56-64 | an analyzer result without any field is recorded with mask "", volumes, confidence and time 0.0, and model "Unknown" |
| AnalyzeEndpoint.AnalyzeKeepsOneSegmentationPerScan | backend/app/api/v1/endpoints/analyze.py:29-34 | analysis keeps at most one segmentation per scan |
| AnalyzeEndpoint.GetAnalysisStatus | backend/app/api/v1/endpoints/analyze.py:90-123 | 404 exactly for an unknown scan; "completed" exactly when the scan has a segmentation, with that segmentation's id, model and volume; "pending" otherwise |
| AnalyzeEndpoint.AnalyzeThenStatusCompleted | backend/app/api/v1/endpoints/analyze.py:90-116 | after a successful analysis the status is "completed" and names the new segmentation |
| Lifecycle.AppendedScanIsFound | backend/app/api/v1/endpoints/analyze.py:21 | a scan appended under a fresh id is the one the lookup by that id finds |
| Lifecycle.UploadedScansAreRoutable | backend/app/api/v1/endpoints/upload.py:105-113 | a scan stored by the multi-modality upload always reaches an analyzer, so both versions of the analysis handler agree on it |
| Lifecycle.PetUploadStored | backend/app/api/v1/endpoints/segment.py:81-146 | the single-modality upload accepts a .nii file with modality "PET" and stores the modality unchanged |
| Lifecycle.PetAnalysis | backend/app/api/v1/endpoints/analyze.py:49-53 | analysing that scan answers 500 as written and 400 as corrected |
| Lifecycle.UnsupportedModalityAnswersServerError | backend/app/api/v1/endpoints/analyze.py:49-53 | end to end: a "PET" volume uploaded through the single-modality endpoint is then refused with 500, not 400 |
| Lifecycle.ExternalKeySeesNoScans | backend/app/api/v1/endpoints/monitor.py:18 | as written, when no scan is keyed by the external identifier, the trend is empty and check-alerts finds and creates nothing |
| Lifecycle.UploadedScan | backend/app/api/v1/endpoints/upload.py:105-117 | a successful upload appends one scan with the new id, keyed by the patient's internal id |
| Lifecycle.AnalysedSegmentation | backend/app/api/v1/endpoints/analyze.py:56-68 | a successful analysis appends one segmentation of the analysed scan |
| Lifecycle.UploadAnalyseTrend | backend/app/api/v1/endpoints/monitor.py:117-128 | after upload and analysis, the corrected trend lists the new scan |
| Lifecycle.UploadAnalyseTrendAsWritten | backend/app/api/v1/endpoints/monitor.py:127 | after the same upload and analysis, the trend as written is still empty when the internal and external ids differ |
| Lifecycle.AnalysisAndSegmentationExclusive | backend/app/api/v1/endpoints/segment.py:166-172 | once a scan is analysed the segmentation handler refuses it, and once it is segmented the analysis handler refuses it |

## Left out

- Persistence: SQLAlchemy sessions, commits and `refresh`. FastAPI routing and request parsing are left out too. The store is a value, and every handler is one sequential transaction. Autoflush is modelled: in `Ledger.RecordCandidates` each later candidate's dedup query sees the alerts inserted for earlier ones.
- Form defaults: `upload_scan` defaults `modality` to "MRI" and `body_part` to "Brain" (segment.py:87-88). The model's form always carries both fields, so a caller that omits them is modelled by passing those values.
- Path syntax: `os.path.splitext` is modelled in its POSIX form. Only '/' separates path components; a backslash or a Windows drive prefix is an ordinary character.
- Concurrency: the race between the dedup query and the alert insert is not modelled, because it needs concurrent calls.
- File I/O: writing the upload, `getsize`, and creating directories. The written size is a parameter.
- Random values: `uuid4` ids and file names. The generated values are parameters, and freshness is assumed where a lemma needs it.
- Clocks: `datetime.utcnow()` is the parameter `now`.
- Scan-date parsing: `fromisoformat` and its fallback to the current time. The form carries an already-parsed time.
- Growth-rate text: the `{rate:.2f}` rendering in alert messages is the parameter `fmt`.
- Floating point: volumes and rates are exact reals, so float rounding is not modelled.
- Casing: only ASCII letters are upper- or lower-cased. Python's Unicode casing is not modelled.
- Image processing: loading the NIfTI image and thresholding it at the 95th percentile in `simulate_tumor_segmentation` are replaced by the resulting voxel count. A missing count stands for a load that raised.
- The MRI, CT and X-ray analyzers and the histology classifier are not part of this model. The handler sees them as one function from (modality, file path, hint) to returned fields or a raised message.
- AnalyzeEndpoint.Analyze: does not model the `analysis_details` entry of the response, nor a non-numeric result value that makes `float()` raise.
- AnalyzeEndpoint.GetAnalysisStatus: does not report the segmentation's `created_at`, because segmentation creation times are not modelled.
- Monitor.CheckAlertsFor: the response's "Found n potential alerts, created m new alerts" text is left out. Its counts are the lengths of `found` and `created`.
- Response shaping (`isoformat`, `str()`, `float()`, Pydantic validation) is left out. Responses carry the record values.
- Patient, scan and segmentation ids are not checked for uniqueness; the database constraints are assumed.
- `patients.py`, the schemas, the frontend and the scripts are not part of this model.

## Findings

| source | as written | input that shows it | evidently intended | confidence | as-written member | corrected member |
|---|---|---|---|---|---|---|
| backend/app/api/v1/endpoints/monitor.py:18 | the trend and check-alerts queries select scans whose `patient_id` column equals the external patient identifier, but uploads store the internal `patients.id` there (upload.py:106, segment.py:135) | a patient with internal id "pk-1" and external id "P001": upload and analyse a scan, then request the trend for "P001" | select the patient's scans by `patient.id`, as the dashboard's scan list does | not executed | Lifecycle.UploadAnalyseTrendAsWritten | Lifecycle.UploadAnalyseTrend |
| backend/app/api/v1/endpoints/analyze.py:49-53 | the 400 for an unsupported modality is raised inside the `try` and re-raised by the broad `except` as 500 "Analysis failed: 400: Unsupported modality: …" | a "brain.nii" upload with modality "PET" through the segmentation endpoint, then an analysis of that scan | answer 400 "Unsupported modality: PET" | not executed | Lifecycle.UnsupportedModalityAnswersServerError | AnalyzeEndpoint.AnalyzeCorrected |

=== FILE: analyze.dfy ===
/** The modality-routing analysis handler (`analyze`) and `get_analysis_status`. The
    three analyzers are foreign code; the handler sees them through one function value. */
module AnalyzeEndpoint {
  import opened Outcomes
  import opened Text
  import opened Records
  import opened MedicalFormats

  /** The keys an analyzer's result dictionary may carry; a missing key is `None`. */
  datatype AnalyzerFields = AnalyzerFields(
    maskPath: Option<string>,
    volumeCc: Option<real>,
    volumeMm3: Option<real>,
    confidence: Option<real>,
    modelName: Option<string>,
    processingSeconds: Option<real>)

  /** What a call to an analyzer does: return its fields or raise with a message. */
  datatype AnalyzerOutcome = Returned(fields: AnalyzerFields) | Raised(message: string)

  /** An analyzer, called with the modality, the scan's file path and the routing hint. */
  type Analyzer = (Modality, string, string) -> AnalyzerOutcome

  datatype AnalysisReport = AnalysisReport(
    scanId: string,
    modality: string,
    segmentationId: string,
    modelName: string,
    volumeCc: real,
    volumeMm3: real,
    confidence: real,
    processingSeconds: real,
    maskPath: string,
    status: string)

  function GetOr<T>(o: Option<T>, default: T): T {
    match o
    case Some(v) => v
    case None => default
  }

  /** The second argument each analyzer receives: the scan type for MRI, the body part
      for CT and X-ray. */
  function RoutingHint(m: Modality, scan: Scan): string {
    if m == Mri then scan.scanType else scan.bodyPart
  }

  /** The segmentation recorded from an analyzer's fields, with the handler's defaults for
      missing keys. */
  function SegmentationFrom(id: string, scanId: string, f: AnalyzerFields): Segmentation {
    Segmentation(id, scanId, GetOr(f.maskPath, ""), GetOr(f.volumeCc, 0.0), GetOr(f.volumeMm3, 0.0),
                 GetOr(f.confidence, 0.0), GetOr(f.modelName, "Unknown"), GetOr(f.processingSeconds, 0.0))
  }

  function AlreadyAnalysed(scanId: string): HttpError {
    HttpError(BadRequest, "Analysis already exists for scan " + scanId)
  }

  function AnalysisFailed(message: string): HttpError {
    HttpError(InternalServerError, "Analysis failed: " + message)
  }

  /** The 400 raised inside the handler's `try` for a modality no analyzer handles. */
  function UnsupportedModality(modality: string): HttpError {
    HttpError(BadRequest, "Unsupported modality: " + modality)
  }

  /** The text an `HTTPException` with status 400 renders as: the code, a colon, the
      detail. */
  function RenderedBadRequest(e: HttpError): string {
    "400: " + e.detail
  }

  /** What routing a scan to its analyzer gives: an unsupported (upper-cased) modality,
      the analyzer's failure, or its fields. */
  datatype Dispatched =
    | NoAnalyzer(upperModality: string)
    | Failed(message: string)
    | Analysed(routed: Modality, fields: AnalyzerFields)

  /** The `try` body up to the analyzer's answer: choose the analyzer by the upper-cased
      modality and call it with the scan's file path and routing hint. */
  function Dispatch(scan: Scan, run: Analyzer): (d: Dispatched)
    ensures d.NoAnalyzer? <==> ParseModality(scan.modality).None?
    ensures d.NoAnalyzer? ==> d.upperModality == Upper(scan.modality)
    ensures d.Analysed? ==>
      && ModalityName(d.routed) == Upper(scan.modality)
      && run(d.routed, scan.filePath, RoutingHint(d.routed, scan)) == Returned(d.fields)
    ensures d.Failed? ==>
      exists m :: && ParseModality(scan.modality) == Some(m)
                  && run(m, scan.filePath, RoutingHint(m, scan)) == Raised(d.message)
  {
    match ParseModality(scan.modality)
    case None => NoAnalyzer(Upper(scan.modality))
    case Some(m) =>
      match run(m, scan.filePath, RoutingHint(m, scan))
      case Raised(message) => Failed(message)
      case Returned(f) => Analysed(m, f)
  }

  /** The handler, with `asWritten` choosing what an unsupported modality answers;
      `Analyze` and `AnalyzeCorrected` differ only there. */
  function AnalyzeWith(db: Db, scanId: string, segId: string, run: Analyzer, asWritten: bool)
    : Result<(Db, AnalysisReport)>
  {
    match FindScan(db, scanId)
    case None => Err(ScanNotFound(scanId))
    case Some(scan) =>
      if FindSegmentation(db, scanId).Some? then Err(AlreadyAnalysed(scanId))
      else
        match Dispatch(scan, run)
        case NoAnalyzer(mod) =>
          Err(if asWritten then AnalysisFailed(RenderedBadRequest(UnsupportedModality(mod))) else UnsupportedModality(mod))
        case Failed(message) => Err(AnalysisFailed(message))
        case Analysed(m, f) =>
          var g := SegmentationFrom(segId, scanId, f);
          Ok((db.(segmentations := db.segmentations + [g]),
              AnalysisReport(scanId, ModalityName(m), segId, g.segmentationMethod, g.volumeCc, g.volumeMm3,
                             g.confidence, g.processingSeconds, g.maskPath, "completed")))
  }

  /** `analyze` as written: 404 for an unknown scan, 400 when the scan already has a
      segmentation, then the analyzer chosen by the upper-cased modality. The 400 for an
      unsupported modality is raised inside the `try` and so is re-raised as a 500 whose
      detail embeds the rendered 400, like any analyzer failure. On success one
      segmentation is appended for the scan. */
  function Analyze(db: Db, scanId: string, segId: string, run: Analyzer): (r: Result<(Db, AnalysisReport)>)
    ensures FindScan(db, scanId).None? ==> r == Err(ScanNotFound(scanId))
    ensures FindScan(db, scanId).Some? && FindSegmentation(db, scanId).Some? ==> r == Err(AlreadyAnalysed(scanId))
    ensures FindScan(db, scanId).Some? && FindSegmentation(db, scanId).None? ==>
      match Dispatch(FindScan(db, scanId).value, run)
      case NoAnalyzer(mod) => r == Err(AnalysisFailed(RenderedBadRequest(UnsupportedModality(mod))))
      case Failed(message) => r == Err(AnalysisFailed(message))
      case Analysed(m, f) =>
        && r.Ok?
        && r.value.0 == db.(segmentations := db.segmentations + [SegmentationFrom(segId, scanId, f)])
        && r.value.1.modality == ModalityName(m)
        && r.value.1.status == "completed"
        && r.value.1.segmentationId == segId
  {
    AnalyzeWith(db, scanId, segId, run, true)
  }

  /** `analyze` as evidently intended: an unsupported modality answers 400, so a 500
      only ever reports an analyzer failure. */
  function AnalyzeCorrected(db: Db, scanId: string, segId: string, run: Analyzer): (r: Result<(Db, AnalysisReport)>)
    ensures FindScan(db, scanId).Some? && FindSegmentation(db, scanId).None? && ParseModality(FindScan(db, scanId).value.modality).None?
      ==> r == Err(UnsupportedModality(Upper(FindScan(db, scanId).value.modality)))
    ensures r.Err? && r.error.status == InternalServerError ==>
      FindScan(db, scanId).Some? && Dispatch(FindScan(db, scanId).value, run).Failed?
  {
    AnalyzeWith(db, scanId, segId, run, false)
  }

  /** The two versions agree on an unknown scan, an analysed scan, and every scan whose
      modality an analyzer handles: they differ only on unanalysed scans of an
      unsupported modality. */
  lemma AnalyzeCorrectedAgreesOnSupported(db: Db, scanId: string, segId: string, run: Analyzer)
    requires
      || FindScan(db, scanId).None?
      || FindSegmentation(db, scanId).Some?
      || ParseModality(FindScan(db, scanId).value.modality).Some?
    ensures Analyze(db, scanId, segId, run) == AnalyzeCorrected(db, scanId, segId, run)
  {
  }

  lemma PetRendered()
    ensures RenderedBadRequest(UnsupportedModality("PET")) == "400: Unsupported modality: PET"
  {
    assert UnsupportedModality("PET").detail == "Unsupported modality: PET";
  }

  /** The detail of the 500 that an unsupported modality such as "PET" produces. */
  lemma PetErrorTexts()
    ensures AnalysisFailed(RenderedBadRequest(UnsupportedModality("PET")))
         == HttpError(500, "Analysis failed: 400: Unsupported modality: PET")
  {
    PetRendered();
    assert "Analysis failed: " + "400: Unsupported modality: PET" == "Analysis failed: 400: Unsupported modality: PET";
  }

  /** The routing: MRI scans go to their analyzer with the scan type, CT and X-ray scans
      with the body part; the modality is matched case-insensitively. */
  lemma AnalyzerSeesRoutingHint(db: Db, scanId: string, segId: string, run: Analyzer)
    requires Analyze(db, scanId, segId, run).Ok?
    ensures var scan := FindScan(db, scanId).value;
      && (Upper(scan.modality) == "MRI" ==> run(Mri, scan.filePath, scan.scanType).Returned?)
      && (Upper(scan.modality) == "CT" ==> run(Ct, scan.filePath, scan.bodyPart).Returned?)
      && (Upper(scan.modality) == "XRAY" ==> run(Xray, scan.filePath, scan.bodyPart).Returned?)
  {
  }

  /** An analyzer that returns nothing at all still yields a record, with the handler's
      defaults. */
  lemma EmptyAnalyzerResultUsesDefaults(db: Db, scanId: string, segId: string, run: Analyzer)
    requires Analyze(db, scanId, segId, run).Ok?
    requires var scan := FindScan(db, scanId).value;
      var m := ParseModality(scan.modality).value;
      run(m, scan.filePath, RoutingHint(m, scan)) == Returned(AnalyzerFields(None, None, None, None, None, None))
    ensures var g := Analyze(db, scanId, segId, run).value.0.segmentations[|db.segmentations|];
      g == Segmentation(segId, scanId, "", 0.0, 0.0, 0.0, "Unknown", 0.0)
  {
  }

  /** `analyze` keeps at most one segmentation per scan. */
  lemma AnalyzeKeepsOneSegmentationPerScan(db: Db, scanId: string, segId: string, run: Analyzer)
    requires OneSegmentationPerScan(db.segmentations)
    requires Analyze(db, scanId, segId, run).Ok?
    ensures OneSegmentationPerScan(Analyze(db, scanId, segId, run).value.0.segmentations)
  {
    var segs' := Analyze(db, scanId, segId, run).value.0.segmentations;
    var n := |db.segmentations|;
    assert segs'[n].scanId == scanId;
    forall i, j | 0 <= i < j < |segs'|
      ensures segs'[i].scanId != segs'[j].scanId
    {
      if j == n {
        assert segs'[i] == db.segmentations[i];
        assert segs'[i] in db.segmentations;
      } else {
        assert segs'[i] == db.segmentations[i] && segs'[j] == db.segmentations[j];
      }
    }
  }

  /** The answer of `get_analysis_status`. */
  datatype AnalysisStatus =
    | Completed(scanId: string, modality: string, segmentationId: string, modelName: string, volumeCc: real, confidence: real)
    | Pending(scanId: string, modality: string, message: string)

  function StatusText(s: AnalysisStatus): string {
    if s.Completed? then "completed" else "pending"
  }

  /** `get_analysis_status`: 404 for an unknown scan; otherwise "completed" with the
      scan's segmentation when it has one and "pending" when it has none. */
  function GetAnalysisStatus(db: Db, scanId: string): (r: Result<AnalysisStatus>)
    ensures r.Err? <==> FindScan(db, scanId).None?
    ensures r.Err? ==> r.error == ScanNotFound(scanId)
    ensures r.Ok? ==> r.value.scanId == scanId && r.value.modality == FindScan(db, scanId).value.modality
    ensures r.Ok? ==> (StatusText(r.value) == "completed" <==> exists g :: g in db.segmentations && g.scanId == scanId)
    ensures r.Ok? && r.value.Completed? ==>
      exists g :: g in db.segmentations && g.scanId == scanId && r.value.segmentationId == g.id
        && r.value.modelName == g.segmentationMethod && r.value.volumeCc == g.volumeCc
  {
    match FindScan(db, scanId)
    case None => Err(ScanNotFound(scanId))
    case Some(scan) =>
      match FindSegmentation(db, scanId)
      case Some(g) => Ok(Completed(scanId, scan.modality, g.id, g.segmentationMethod, g.volumeCc, g.confidence))
      case None => Ok(Pending(scanId, scan.modality, "Analysis not yet performed"))
  }

  /** After a successful analysis the status is "completed" and names the new record. */
  lemma AnalyzeThenStatusCompleted(db: Db, scanId: string, segId: string, run: Analyzer)
    requires Analyze(db, scanId, segId, run).Ok?
    ensures var db' := Analyze(db, scanId, segId, run).value.0;
      && GetAnalysisStatus(db', scanId).Ok?
      && GetAnalysisStatus(db', scanId).value.Completed?
      && GetAnalysisStatus(db', scanId).value.segmentationId == segId
  {
    var db' := Analyze(db, scanId, segId, run).value.0;
    var g := db'.segmentations[|db.segmentations|];
    assert FindScan(db', scanId) == FindScan(db, scanId);
    var h := FindSegmentation(db', scanId);
    assert g in db'.segmentations;
    assert h.value in db.segmentations + [g];
  }
}

=== FILE: formats.dfy ===
/** Modalities, the accepted file suffixes per modality, and the extension a stored
    upload keeps. */
module MedicalFormats {
  import opened Outcomes
  import opened Text

  datatype Modality = Mri | Ct | Xray

  function ModalityName(m: Modality): string {
    match m
    case Mri => "MRI"
    case Ct => "CT"
    case Xray => "XRAY"
  }

  /** The modality a form value names, compared after upper-casing. */
  function ParseModality(s: string): (r: Option<Modality>)
    ensures r.Some? ==> ModalityName(r.value) == Upper(s)
    ensures r.None? <==> Upper(s) !in ["MRI", "CT", "XRAY"]
  {
    var u := Upper(s);
    if u == "MRI" then Some(Mri)
    else if u == "CT" then Some(Ct)
    else if u == "XRAY" then Some(Xray)
    else None
  }

  /** Volume formats: NIfTI, DICOM, MetaImage. */
  const VolumeExtensions: seq<string> := [".nii.gz", ".nii", ".dcm", ".dicom", ".mha", ".mhd"]
  /** Radiograph formats: DICOM and common raster images. */
  const XrayExtensions: seq<string> := [".dcm", ".dicom", ".jpg", ".jpeg", ".png", ".tiff", ".tif"]

  function ExtensionsFor(m: Modality): seq<string> {
    match m
    case Mri => VolumeExtensions
    case Ct => VolumeExtensions
    case Xray => XrayExtensions
  }

  /** The lower-cased file name ends with one of `exts`. */
  predicate HasSuffixIn(filename: string, exts: seq<string>) {
    exists e :: e in exts && EndsWith(Lower(filename), e)
  }

  /** `validate_medical_file(filename, modality)` of the upload endpoint: false for any
      modality other than MRI, CT or XRAY, otherwise whether the lower-cased name ends with
      one of that modality's suffixes. */
  function ValidateForModality(filename: string, modality: string): (ok: bool)
    ensures ParseModality(modality).None? ==> !ok
    ensures ParseModality(modality).Some? ==> (ok <==> HasSuffixIn(filename, ExtensionsFor(ParseModality(modality).value)))
  {
    match ParseModality(modality)
    case None => false
    case Some(m) => HasSuffixIn(filename, ExtensionsFor(m))
  }

  /** `validate_medical_file(filename)` of the segmentation endpoint: the volume suffixes,
      whatever the modality. */
  function ValidateVolumeFile(filename: string): (ok: bool)
    ensures ok <==> exists e :: e in VolumeExtensions && EndsWith(Lower(filename), e)
  {
    HasSuffixIn(filename, VolumeExtensions)
  }

  /** The extension a stored upload keeps: ".nii.gz" when the name ends with exactly that
      (case-sensitively), otherwise the extension `os.path.splitext` gives. */
  function StoredExtension(filename: string): (e: string)
    ensures EndsWith(filename, e)
    ensures e == [] || e[0] == '.'
    ensures EndsWith(filename, ".nii.gz") ==> e == ".nii.gz"
    ensures !EndsWith(filename, ".nii.gz") && e != [] ==> |filename| - |e| == LastIndexOf(filename, '.')
    ensures !EndsWith(filename, ".nii.gz") ==>
      (e != [] <==> exists k, d :: LastIndexOf(filename, '/') < k < d < |filename| && filename[k] != '.' && filename[d] == '.')
  {
    if EndsWith(filename, ".nii.gz") then ".nii.gz" else Extension(filename)
  }

  /** A name that is only a dot-led suffix, such as ".nii", passes MRI validation but is
      stored with no extension: `splitext` treats a leading dot as part of the stem. */
  lemma DotNiiStoredWithoutExtension()
    ensures ValidateForModality(".nii", "MRI")
    ensures StoredExtension(".nii") == []
  {
    DotNiiValidForMri();
    DotNiiHasNoExtension();
  }

  lemma DotNiiValidForMri()
    ensures ValidateForModality(".nii", "MRI")
  {
    var f := ".nii";
    assert Lower(f) == f by {
      assert Lower(f)[0] == '.' && Lower(f)[1] == 'n' && Lower(f)[2] == 'i' && Lower(f)[3] == 'i';
    }
    assert Upper("MRI") == "MRI";
    assert VolumeExtensions[1] == ".nii";
    assert EndsWith(Lower(f), VolumeExtensions[1]);
  }

  lemma DotNiiHasNoExtension()
    ensures StoredExtension(".nii") == []
  {
    var f := ".nii";
    assert |f| < |".nii.gz"|;
    assert f[0] == '.' && f[1] == 'n' && f[2] == 'i' && f[3] == 'i';
  }

  /** MRI and CT accept the same files, and those are exactly the files the segmentation
      endpoint accepts. */
  lemma MriCtAndVolumeValidatorsAgree(filename: string, mri: string, ct: string)
    requires Upper(mri) == "MRI" && Upper(ct) == "CT"
    ensures ValidateForModality(filename, mri) == ValidateForModality(filename, ct) == ValidateVolumeFile(filename)
  {
  }

  /** Validation ignores the case of the file name and of the modality. */
  lemma ValidationIgnoresCase(filename: string, modality: string)
    ensures ValidateForModality(Upper(filename), modality) == ValidateForModality(filename, modality)
    ensures ValidateForModality(Lower(filename), modality) == ValidateForModality(filename, modality)
    ensures ValidateForModality(filename, Lower(modality)) == ValidateForModality(filename, modality)
  {
    LowerOfUpper(filename);
    LowerIdempotent(filename);
    UpperOfLower(modality);
  }

  /** Upper-casing a lowered string gives the upper-cased string. */
  lemma {:induction false} UpperOfLower(s: string)
    ensures Upper(Lower(s)) == Upper(s)
  {
    if |s| > 0 {
      UpperOfLower(s[1..]);
      assert Lower(s)[1..] == Lower(s[1..]);
    }
  }

  /** A non-empty suffix fixes the last character. */
  lemma LastCharOfSuffix(s: string, e: string)
    requires EndsWith(s, e) && |e| > 0
    ensures s[|s| - 1] == e[|e| - 1]
  {
    assert s[|s| - |e|..][|e| - 1] == s[|s| - 1];
  }

  /** None of `exts` is a suffix of `l` when none of them ends with the last character of `l`. */
  lemma NoSuffixWithOtherLastChar(l: string, exts: seq<string>)
    requires |l| > 0
    requires forall e :: e in exts ==> |e| > 0 && e[|e| - 1] != l[|l| - 1]
    ensures forall e :: e in exts ==> !EndsWith(l, e)
  {
    forall e | e in exts ensures !EndsWith(l, e) {
      if EndsWith(l, e) {
        LastCharOfSuffix(l, e);
      }
    }
  }

  /** The X-ray suffixes end in 'm', 'g' or 'f'. */
  lemma XrayLastChars()
    ensures forall e :: e in XrayExtensions ==> |e| > 0 && e[|e| - 1] in "mgf"
  {
  }

  /** The volume suffixes end in 'z', 'i', 'm', 'a' or 'd'. */
  lemma VolumeLastChars()
    ensures forall e :: e in VolumeExtensions ==> |e| > 0 && e[|e| - 1] in "zimad"
  {
  }

  /** A name ending in ".nii" or ".nii.gz" ends with none of the X-ray suffixes. */
  lemma NiftiIsNoXraySuffix(l: string)
    requires EndsWith(l, ".nii") || EndsWith(l, ".nii.gz")
    ensures forall e :: e in XrayExtensions ==> !EndsWith(l, e)
  {
    if EndsWith(l, ".nii") { LastCharOfSuffix(l, ".nii"); } else { LastCharOfSuffix(l, ".nii.gz"); }
    XrayLastChars();
    NoSuffixWithOtherLastChar(l, XrayExtensions);
  }

  /** A name ending in ".jpg" or ".jpeg" ends with none of the volume suffixes. */
  lemma JpegIsNoVolumeSuffix(l: string)
    requires EndsWith(l, ".jpg") || EndsWith(l, ".jpeg")
    ensures forall e :: e in VolumeExtensions ==> !EndsWith(l, e)
  {
    if EndsWith(l, ".jpg") { LastCharOfSuffix(l, ".jpg"); } else { LastCharOfSuffix(l, ".jpeg"); }
    VolumeLastChars();
    NoSuffixWithOtherLastChar(l, VolumeExtensions);
  }

  /** NIfTI files are rejected for X-ray. */
  lemma XrayRejectsNifti(filename: string, modality: string)
    requires Upper(modality) == "XRAY"
    requires EndsWith(Lower(filename), ".nii") || EndsWith(Lower(filename), ".nii.gz")
    ensures !ValidateForModality(filename, modality)
  {
    NiftiIsNoXraySuffix(Lower(filename));
    assert ParseModality(modality) == Some(Xray);
  }

  /** JPEG files are rejected for MRI and CT. */
  lemma VolumeModalitiesRejectJpeg(filename: string, modality: string)
    requires Upper(modality) == "MRI" || Upper(modality) == "CT"
    requires EndsWith(Lower(filename), ".jpg") || EndsWith(Lower(filename), ".jpeg")
    ensures !ValidateForModality(filename, modality)
  {
    JpegIsNoVolumeSuffix(Lower(filename));
    assert ParseModality(modality) == Some(Mri) || ParseModality(modality) == Some(Ct);
  }

  /** A name ending in ".NII.GZ" lower-cases to one ending in ".nii.gz". */
  lemma LowerOfUpperNifti(f: string)
    requires EndsWith(f, ".NII.GZ")
    ensures EndsWith(Lower(f), ".nii.gz")
  {
    var l, d := Lower(f), |f| - 7;
    assert f[d] == '.' && f[d + 1] == 'N' && f[d + 2] == 'I' && f[d + 3] == 'I';
    assert f[d + 4] == '.' && f[d + 5] == 'G' && f[d + 6] == 'Z';
    assert l[d] == '.' && l[d + 1] == 'n' && l[d + 2] == 'i' && l[d + 3] == 'i';
    assert l[d + 4] == '.' && l[d + 5] == 'g' && l[d + 6] == 'z';
    assert l[d..] == ".nii.gz";
  }

  /** A name whose lower-cased form ends in ".nii.gz" is a valid MRI upload. */
  lemma NiftiGzValidForMri(f: string)
    requires EndsWith(Lower(f), ".nii.gz")
    ensures ValidateForModality(f, "MRI")
  {
    assert Upper("MRI") == "MRI";
    assert VolumeExtensions[0] == ".nii.gz";
  }

  /** A name ending in ".NII.GZ" is a valid MRI upload. */
  lemma UpperNiftiValidForMri(f: string)
    requires EndsWith(f, ".NII.GZ")
    ensures ValidateForModality(f, "MRI")
  {
    LowerOfUpperNifti(f);
    NiftiGzValidForMri(f);
  }

  /** A name ending in 'Z' does not end in ".nii.gz". */
  lemma NotLowerNifti(f: string)
    requires |f| > 0 && f[|f| - 1] == 'Z'
    ensures !EndsWith(f, ".nii.gz")
  {
    if EndsWith(f, ".nii.gz") {
      LastCharOfSuffix(f, ".nii.gz");
    }
  }

  /** An upper-case NIfTI name passes MRI validation but is stored with the extension
      ".GZ": the stored-extension test is case-sensitive while validation is not. */
  lemma UpperCaseNiftiStoredAsGz(stem: string)
    ensures ValidateForModality(stem + ".NII.GZ", "MRI")
    ensures StoredExtension(stem + ".NII.GZ") == ".GZ"
  {
    var f := stem + ".NII.GZ";
    assert f[|f| - 7..] == ".NII.GZ";
    UpperNiftiValidForMri(f);
    UpperNiftiStoredExtension(stem);
  }

  /** Whatever precedes ".NII.GZ", the stored extension is ".GZ": the name ends in 'I'
      before the last '.'. */
  lemma UpperNiftiStoredExtension(stem: string)
    ensures StoredExtension(stem + ".NII.GZ") == ".GZ"
  {
    var s2 := stem + ".NII";
    var f := s2 + ".GZ";
    assert f == stem + ".NII.GZ";
    assert f[|f| - 1] == 'Z';
    NotLowerNifti(f);
    ExtensionOfJoin(s2, ".GZ", |s2| - 1);
  }

  /** A name made of a stem and a listed lower-case suffix keeps that suffix when stored,
      ".nii.gz" included. */
  lemma StoredExtensionOfPlainName(stem: string, ext: string, k: nat)
    requires ext in VolumeExtensions || ext in XrayExtensions
    requires k < |stem| && stem[k] != '.' && stem[k] != '/'
    requires forall i :: k < i < |stem| ==> stem[i] != '/'
    ensures StoredExtension(stem + ext) == ext
  {
    var f := stem + ext;
    assert f[|f| - |ext|..] == ext;
    if ext == ".nii.gz" {
      assert EndsWith(f, ".nii.gz");
    } else {
      assert !EndsWith(f, ".nii.gz") by {
        if EndsWith(f, ".nii.gz") {
          LastCharOfSuffix(f, ".nii.gz");
          LastCharOfSuffix(f, ext);
        }
      }
      ExtensionOfJoin(stem, ext, k);
    }
  }
}

=== FILE: growth.dfy ===
/** The growth classifier of `check_for_alerts`: the segmented scans of the last 90 days,
    a growth rate in cc per month from the first and last of them, and at most one
    alert candidate. */
module Growth {
  import opened Seqs
  import opened Records
  import opened Trend

  const WindowDays: int := 90
  const DaysPerMonth: real := 30.0
  /** Growth above this fraction of the first volume per month is rapid. */
  const RapidFraction: real := 0.1
  /** Growth above this fraction of the first volume per month is moderate. */
  const ModerateFraction: real := 0.05

  /** A potential alert, before it is recorded. */
  datatype Candidate = Candidate(alertType: AlertType, severity: Severity, message: string, growthRate: real)

  /** `now - timedelta(days=90)`. */
  function WindowStart(now: Time): Time {
    now - WindowDays * MicrosPerDay
  }

  /** The scans the classifier looks at: the patient's segmented scans dated no earlier
      than 90 days before `now` (inclusive), ordered by scan date. */
  function RecentPoints(db: Db, key: string, now: Time): (r: seq<TrendPoint>)
    ensures forall t :: t in r <==> Joined(db.scans, db.segmentations, key, t) && t.scanDate >= WindowStart(now)
    ensures forall i, j :: 0 <= i < j < |r| ==> r[i].scanDate <= r[j].scanDate
    ensures multiset(r) == multiset(Filter(JoinRows(db.scans, db.segmentations, key), (t: TrendPoint) => t.scanDate >= WindowStart(now)))
  {
    var rows := Filter(JoinRows(db.scans, db.segmentations, key), (t: TrendPoint) => t.scanDate >= WindowStart(now));
    SortBy(rows, (t: TrendPoint) => t.scanDate)
  }

  /** `(last - first).days / 30.0`. */
  function MonthSpan(first: TrendPoint, last: TrendPoint): real {
    DaysBetween(first.scanDate, last.scanDate) as real / DaysPerMonth
  }

  /** The growth in cc per month between two points; 0 when they are less than a whole
      day apart (or out of order). */
  function GrowthRate(first: TrendPoint, last: TrendPoint): (rate: real)
    ensures MonthSpan(first, last) <= 0.0 ==> rate == 0.0
    ensures MonthSpan(first, last) > 0.0 ==> rate * MonthSpan(first, last) == last.volumeCc - first.volumeCc
    ensures last.scanDate - first.scanDate < MicrosPerDay ==> rate == 0.0
  {
    var months := MonthSpan(first, last);
    if months > 0.0 then (last.volumeCc - first.volumeCc) / months else 0.0
  }

  /** The alert text; `rateText` is the rate rendered with two decimals. */
  function AlertMessage(t: AlertType, rateText: string): string {
    match t
    case RapidGrowth => "Rapid tumor growth detected: " + rateText + " cc/month"
    case ModerateGrowth => "Moderate tumor growth detected: " + rateText + " cc/month"
  }

  /** Classifies a growth rate against the first volume: rapid/high above 10% of it,
      otherwise moderate/medium above 5% of it, otherwise nothing. `fmt` renders the
      rate as `f"{rate:.2f}"` does. */
  function Classify(rate: real, baseline: real, fmt: real -> string): (r: seq<Candidate>)
    ensures |r| <= 1
    ensures |r| == 1 <==> rate > RapidFraction * baseline || rate > ModerateFraction * baseline
    ensures |r| == 1 ==> (r[0].alertType == RapidGrowth <==> rate > RapidFraction * baseline)
    ensures |r| == 1 ==> r[0].severity == (if r[0].alertType == RapidGrowth then High else Medium)
    ensures |r| == 1 ==> r[0].growthRate == rate && r[0].message == AlertMessage(r[0].alertType, fmt(rate))
  {
    if rate > RapidFraction * baseline then
      [Candidate(RapidGrowth, High, AlertMessage(RapidGrowth, fmt(rate)), rate)]
    else if rate > ModerateFraction * baseline then
      [Candidate(ModerateGrowth, Medium, AlertMessage(ModerateGrowth, fmt(rate)), rate)]
    else
      []
  }

  /** Classifies an ordered window from its first and last points only: with two or more
      points there is a candidate exactly when the rate between them exceeds a threshold
      on the first volume. */
  function ClassifyWindow(points: seq<TrendPoint>, fmt: real -> string): (r: seq<Candidate>)
    ensures |r| <= 1
    ensures |points| < 2 ==> r == []
    ensures |points| >= 2 ==>
      var rate, base := GrowthRate(points[0], points[|points| - 1]), points[0].volumeCc;
      (|r| == 1 <==> rate > RapidFraction * base || rate > ModerateFraction * base)
    ensures |r| == 1 ==>
      && r[0].severity == (if r[0].alertType == RapidGrowth then High else Medium)
      && r[0].message == AlertMessage(r[0].alertType, fmt(r[0].growthRate))
    ensures |r| == 1 ==>
      && |points| >= 2
      && r[0].growthRate == GrowthRate(points[0], points[|points| - 1])
      && (r[0].alertType == RapidGrowth <==> r[0].growthRate > RapidFraction * points[0].volumeCc)
      && (r[0].alertType == ModerateGrowth ==> r[0].growthRate > ModerateFraction * points[0].volumeCc)
  {
    if |points| < 2 then []
    else Classify(GrowthRate(points[0], points[|points| - 1]), points[0].volumeCc, fmt)
  }

  /** `check_for_alerts` for the scans whose patient column is `key`, at time `now`:
      at most one candidate, none when fewer than two segmented scans fall in the
      window, and otherwise one exactly when the growth from the earliest to the latest
      of them exceeds a threshold on the earliest volume. */
  function CheckForAlerts(db: Db, key: string, now: Time, fmt: real -> string): (r: seq<Candidate>)
    ensures |r| <= 1
    ensures ClassifiedByEndpoints(RecentPoints(db, key, now), r, fmt)
  {
    ClassifyWindow(RecentPoints(db, key, now), fmt)
  }

  /** `r` is what the thresholds make of the ordered window `w`: nothing for fewer than
      two points; otherwise a candidate exactly when the rate from the first to the last
      point exceeds 10% or 5% of the first volume, carrying that rate, rapid/high exactly
      above 10% and moderate/medium otherwise, with its type's text and `fmt` of the rate. */
  ghost predicate ClassifiedByEndpoints(w: seq<TrendPoint>, r: seq<Candidate>, fmt: real -> string) {
    && (|w| < 2 ==> r == [])
    && (|w| >= 2 ==>
          var rate, base := GrowthRate(w[0], w[|w| - 1]), w[0].volumeCc;
          && (|r| == 1 <==> rate > RapidFraction * base || rate > ModerateFraction * base)
          && (|r| == 1 ==> r[0].growthRate == rate && (r[0].alertType == RapidGrowth <==> rate > RapidFraction * base))
          && (|r| == 1 ==> r[0].severity == (if r[0].alertType == RapidGrowth then High else Medium))
          && (|r| == 1 ==> r[0].message == AlertMessage(r[0].alertType, fmt(rate))))
  }

  /** A candidate is the classification of the growth between an earliest and a latest
      scan of the window: no other scan of the window takes part. Conversely, when every
      such pair of scans shows growth above a threshold, there is a candidate. */
  lemma CandidateFromWindowEndpoints(db: Db, key: string, now: Time, fmt: real -> string)
    ensures var w, r := RecentPoints(db, key, now), CheckForAlerts(db, key, now, fmt);
      |r| == 1 ==> EndpointCandidate(w, r[0])
    ensures var w, r := RecentPoints(db, key, now), CheckForAlerts(db, key, now, fmt);
      |w| >= 2 && (forall first, last :: Bounds(w, first, last) ==> AboveThreshold(first, last)) ==> |r| == 1
  {
    var w := RecentPoints(db, key, now);
    SortedWindowCandidate(w, fmt);
  }

  /** `first` and `last` are points of `w` that bound every date of `w`. */
  ghost predicate Bounds(w: seq<TrendPoint>, first: TrendPoint, last: TrendPoint) {
    && first in w && last in w
    && forall t :: t in w ==> first.scanDate <= t.scanDate <= last.scanDate
  }

  /** The growth from `first` to `last` exceeds one of the thresholds on the first volume. */
  ghost predicate AboveThreshold(first: TrendPoint, last: TrendPoint) {
    GrowthRate(first, last) > RapidFraction * first.volumeCc || GrowthRate(first, last) > ModerateFraction * first.volumeCc
  }

  /** `c` is classified from two points of `w` that bound every date of `w`. */
  ghost predicate EndpointCandidate(w: seq<TrendPoint>, c: Candidate) {
    exists first, last ::
      && Bounds(w, first, last)
      && c.growthRate == GrowthRate(first, last)
      && (c.alertType == RapidGrowth <==> c.growthRate > RapidFraction * first.volumeCc)
      && (c.alertType == ModerateGrowth ==> c.growthRate > ModerateFraction * first.volumeCc)
  }

  lemma SortedWindowCandidate(w: seq<TrendPoint>, fmt: real -> string)
    requires forall i, j :: 0 <= i < j < |w| ==> w[i].scanDate <= w[j].scanDate
    ensures |ClassifyWindow(w, fmt)| == 1 ==> EndpointCandidate(w, ClassifyWindow(w, fmt)[0])
    ensures |w| >= 2 && (forall first, last :: Bounds(w, first, last) ==> AboveThreshold(first, last)) ==>
      |ClassifyWindow(w, fmt)| == 1
  {
    if |w| >= 2 {
      assert Bounds(w, w[0], w[|w| - 1]);
    }
  }

  /** The severity order of a classification: nothing < moderate < rapid. */
  function Rank(r: seq<Candidate>): nat {
    if |r| == 0 then 0 else if r[0].alertType == RapidGrowth then 2 else 1
  }

  /** With a non-negative first volume, a shrinking or flat tumour never raises an alert. */
  lemma NoGrowthNoAlert(rate: real, baseline: real, fmt: real -> string)
    requires baseline >= 0.0 && rate <= 0.0
    ensures Classify(rate, baseline, fmt) == []
  {
  }

  /** With a zero first volume every positive rate is rapid: the moderate tier is skipped. */
  lemma ZeroBaselineGrowthIsRapid(rate: real, fmt: real -> string)
    requires rate > 0.0
    ensures |Classify(rate, 0.0, fmt)| == 1 && Classify(rate, 0.0, fmt)[0].alertType == RapidGrowth
  {
  }

  /** A larger rate never yields a milder classification. */
  lemma ClassifyMonotone(rate1: real, rate2: real, baseline: real, fmt: real -> string)
    requires rate1 <= rate2
    ensures Rank(Classify(rate1, baseline, fmt)) <= Rank(Classify(rate2, baseline, fmt))
  {
  }

  /** Points less than one whole day apart give a zero rate, hence no alert when the
      first volume is non-negative. */
  lemma SameDayPointsNeverAlert(points: seq<TrendPoint>, fmt: real -> string)
    requires |points| >= 2
    requires points[|points| - 1].scanDate - points[0].scanDate < MicrosPerDay
    requires points[0].volumeCc >= 0.0
    ensures ClassifyWindow(points, fmt) == []
  {
  }

  /** Only the endpoints of the window matter: interior points never change the result. */
  lemma InteriorPointsIgnored(points: seq<TrendPoint>, fmt: real -> string)
    requires |points| >= 2
    ensures ClassifyWindow(points, fmt) == ClassifyWindow([points[0], points[|points| - 1]], fmt)
  {
  }

  /** A larger last volume (same dates, same first point) never gives a milder alert. */
  lemma {:induction false} LargerLastVolumeNeverMilder(first: TrendPoint, last: TrendPoint, v: real, fmt: real -> string)
    requires v >= last.volumeCc
    ensures Rank(ClassifyWindow([first, last], fmt)) <= Rank(ClassifyWindow([first, last.(volumeCc := v)], fmt))
  {
    var bigger := last.(volumeCc := v);
    var m := MonthSpan(first, last);
    assert MonthSpan(first, bigger) == m;
    if m > 0.0 {
      var r1, r2 := GrowthRate(first, last), GrowthRate(first, bigger);
      assert r1 * m <= r2 * m;
      assert r1 <= r2;
      ClassifyMonotone(r1, r2, first.volumeCc, fmt);
    }
  }

  /** 100 cc and then 115 cc thirty days later: 15 cc/month, above 10 cc, so rapid/high. */
  lemma RapidExample(fmt: real -> string)
    ensures var first, last := TrendPoint(0, "a", 100.0, 100000.0, 0.9, "T1"), TrendPoint(30 * MicrosPerDay, "b", 115.0, 115000.0, 0.9, "T1");
      ClassifyWindow([first, last], fmt) == [Candidate(RapidGrowth, High, AlertMessage(RapidGrowth, fmt(15.0)), 15.0)]
  {
    var first, last := TrendPoint(0, "a", 100.0, 100000.0, 0.9, "T1"), TrendPoint(30 * MicrosPerDay, "b", 115.0, 115000.0, 0.9, "T1");
    assert DaysBetween(first.scanDate, last.scanDate) == 30;
  }

  /** 100 cc and then 107 cc thirty days later: 7 cc/month, between 5 and 10 cc, so moderate/medium. */
  lemma ModerateExample(fmt: real -> string)
    ensures var first, last := TrendPoint(0, "a", 100.0, 100000.0, 0.9, "T1"), TrendPoint(30 * MicrosPerDay, "b", 107.0, 107000.0, 0.9, "T1");
      ClassifyWindow([first, last], fmt) == [Candidate(ModerateGrowth, Medium, AlertMessage(ModerateGrowth, fmt(7.0)), 7.0)]
  {
    var first, last := TrendPoint(0, "a", 100.0, 100000.0, 0.9, "T1"), TrendPoint(30 * MicrosPerDay, "b", 107.0, 107000.0, 0.9, "T1");
    assert DaysBetween(first.scanDate, last.scanDate) == 30;
  }

  /** 100 cc and then 104 cc thirty days later: 4 cc/month, no alert. */
  lemma QuietExample(fmt: real -> string)
    ensures var first, last := TrendPoint(0, "a", 100.0, 100000.0, 0.9, "T1"), TrendPoint(30 * MicrosPerDay, "b", 104.0, 104000.0, 0.9, "T1");
      ClassifyWindow([first, last], fmt) == []
  {
    var first, last := TrendPoint(0, "a", 100.0, 100000.0, 0.9, "T1"), TrendPoint(30 * MicrosPerDay, "b", 104.0, 104000.0, 0.9, "T1");
    assert DaysBetween(first.scanDate, last.scanDate) == 30;
  }
}

=== FILE: ledger.dfy ===
/** The alert ledger: deduplicated recording of candidates (`check_patient_alerts`),
    resolution (`resolve_alert`) and the newest-first listings. */
module Ledger {
  import opened Outcomes
  import opened Seqs
  import opened Records
  import opened Growth

  /** `a` is an unresolved alert of type `t` for the patient `key`. */
  predicate IsOpen(a: Alert, key: string, t: AlertType) {
    a.patientKey == key && a.alertType == t && !a.isResolved
  }

  /** Alert ids are unique (they are primary keys). */
  ghost predicate UniqueIds(ledger: seq<Alert>) {
    forall i, j :: 0 <= i < j < |ledger| ==> ledger[i].id != ledger[j].id
  }

  /** The deduplication invariant: at most one unresolved alert per (patient, type). */
  ghost predicate AtMostOneOpen(ledger: seq<Alert>) {
    forall i, j :: 0 <= i < j < |ledger| && !ledger[i].isResolved && !ledger[j].isResolved
      ==> ledger[i].patientKey != ledger[j].patientKey || ledger[i].alertType != ledger[j].alertType
  }

  /** `ids` are pairwise distinct and unused in `ledger`. */
  ghost predicate FreshIds(ledger: seq<Alert>, ids: seq<string>) {
    && (forall i, j :: 0 <= i < j < |ids| ==> ids[i] != ids[j])
    && (forall i, k :: 0 <= i < |ids| && 0 <= k < |ledger| ==> ids[i] != ledger[k].id)
  }

  /** The existing unresolved alert for (`key`, `t`), if there is one. */
  function OpenAlert(ledger: seq<Alert>, key: string, t: AlertType): (r: Option<Alert>)
    ensures r.Some? ==> r.value in ledger && IsOpen(r.value, key, t)
    ensures r.None? <==> forall a :: a in ledger ==> !IsOpen(a, key, t)
  {
    First(ledger, (a: Alert) => IsOpen(a, key, t))
  }

  /** The record created for a candidate: unresolved, created now. */
  function NewAlert(id: string, key: string, c: Candidate, now: Time): Alert {
    Alert(id, key, c.alertType, c.severity, c.message, false, now, None)
  }

  /** Records the candidates in order, skipping any whose (patient, type) already has an
      unresolved alert; `ids` supplies the id of the alert each candidate would create.
      Returns the new ledger and the alerts created: existing alerts are left untouched,
      and every created alert is a fresh unresolved record of one of the candidates. */
  function RecordCandidates(ledger: seq<Alert>, key: string, cands: seq<Candidate>, ids: seq<string>, now: Time)
    : (r: (seq<Alert>, seq<Alert>))
    requires |ids| == |cands|
    ensures r.0 == ledger + r.1
    ensures |r.1| <= |cands|
    ensures forall a :: a in r.1 ==> a.id in ids && exists c :: c in cands && a == NewAlert(a.id, key, c, now)
    decreases |cands|
  {
    if |cands| == 0 then (ledger, [])
    else
      var c := cands[0];
      match OpenAlert(ledger, key, c.alertType)
      case Some(_) =>
        RecordCandidates(ledger, key, cands[1..], ids[1..], now)
      case None =>
        var a := NewAlert(ids[0], key, c, now);
        var rest := RecordCandidates(ledger + [a], key, cands[1..], ids[1..], now);
        (rest.0, [a] + rest.1)
  }

  /** Recording preserves the deduplication invariant. */
  lemma {:induction false} RecordKeepsAtMostOneOpen(ledger: seq<Alert>, key: string, cands: seq<Candidate>, ids: seq<string>, now: Time)
    requires |ids| == |cands|
    requires AtMostOneOpen(ledger)
    ensures AtMostOneOpen(RecordCandidates(ledger, key, cands, ids, now).0)
    decreases |cands|
  {
    if |cands| > 0 {
      var c := cands[0];
      if OpenAlert(ledger, key, c.alertType).None? {
        var a := NewAlert(ids[0], key, c, now);
        var l := ledger + [a];
        forall i, j | 0 <= i < j < |l| && !l[i].isResolved && !l[j].isResolved
          ensures l[i].patientKey != l[j].patientKey || l[i].alertType != l[j].alertType
        {
          if j == |ledger| {
            assert l[i] in ledger;
          }
        }
        RecordKeepsAtMostOneOpen(l, key, cands[1..], ids[1..], now);
      } else {
        RecordKeepsAtMostOneOpen(ledger, key, cands[1..], ids[1..], now);
      }
    }
  }

  /** Recording with fresh ids keeps ids unique. */
  lemma {:induction false} RecordKeepsUniqueIds(ledger: seq<Alert>, key: string, cands: seq<Candidate>, ids: seq<string>, now: Time)
    requires |ids| == |cands|
    requires UniqueIds(ledger) && FreshIds(ledger, ids)
    ensures UniqueIds(RecordCandidates(ledger, key, cands, ids, now).0)
    decreases |cands|
  {
    if |cands| > 0 {
      var c := cands[0];
      if OpenAlert(ledger, key, c.alertType).None? {
        var l := ledger + [NewAlert(ids[0], key, c, now)];
        assert UniqueIds(l) by {
          forall i, j | 0 <= i < j < |l| ensures l[i].id != l[j].id {
            if j == |ledger| {
              assert ids[0] != ledger[i].id;
            }
          }
        }
        var rest := ids[1..];
        assert FreshIds(l, rest) by {
          forall i, k | 0 <= i < |rest| && 0 <= k < |l| ensures rest[i] != l[k].id {
            assert rest[i] == ids[i + 1];
            if k == |ledger| {
              assert l[k].id == ids[0];
            }
          }
        }
        RecordKeepsUniqueIds(l, key, cands[1..], ids[1..], now);
      } else {
        RecordKeepsUniqueIds(ledger, key, cands[1..], ids[1..], now);
      }
    }
  }

  /** After recording, every candidate's (patient, type) has an unresolved alert, and an
      alert was created only where none was unresolved before. */
  lemma {:induction false} RecordCoversCandidates(ledger: seq<Alert>, key: string, cands: seq<Candidate>, ids: seq<string>, now: Time)
    requires |ids| == |cands|
    ensures var r := RecordCandidates(ledger, key, cands, ids, now);
      && (forall c :: c in cands ==> OpenAlert(r.0, key, c.alertType).Some?)
      && (forall a :: a in r.1 ==> OpenAlert(ledger, key, a.alertType).None?)
    decreases |cands|
  {
    if |cands| > 0 {
      var c := cands[0];
      assert forall x :: x in cands ==> x == c || x in cands[1..];
      if OpenAlert(ledger, key, c.alertType).None? {
        var a := NewAlert(ids[0], key, c, now);
        var l := ledger + [a];
        RecordCoversCandidates(l, key, cands[1..], ids[1..], now);
        var rest := RecordCandidates(l, key, cands[1..], ids[1..], now);
        assert a in rest.0;
        forall b | b in rest.1 ensures OpenAlert(ledger, key, b.alertType).None? {
          assert OpenAlert(l, key, b.alertType).None?;
        }
      } else {
        RecordCoversCandidates(ledger, key, cands[1..], ids[1..], now);
        var rest := RecordCandidates(ledger, key, cands[1..], ids[1..], now);
        assert OpenAlert(ledger, key, c.alertType).value in rest.0;
      }
    }
  }

  /** The ledger invariants and the dedup guarantee for a call that can create at most
      one alert, whose id is `newId`. */
  lemma RecordWithOneId(ledger: seq<Alert>, key: string, cands: seq<Candidate>, newId: string, now: Time)
    requires |cands| <= 1
    ensures var r := RecordCandidates(ledger, key, cands, [newId][..|cands|], now);
      && (AtMostOneOpen(ledger) ==> AtMostOneOpen(r.0))
      && (UniqueIds(ledger) && (forall a :: a in ledger ==> a.id != newId) ==> UniqueIds(r.0))
      && (forall c :: c in cands ==> OpenAlert(r.0, key, c.alertType).Some?)
      && (forall a :: a in r.1 ==> OpenAlert(ledger, key, a.alertType).None?)
  {
    var ids := [newId][..|cands|];
    RecordCoversCandidates(ledger, key, cands, ids, now);
    if AtMostOneOpen(ledger) {
      RecordKeepsAtMostOneOpen(ledger, key, cands, ids, now);
    }
    if UniqueIds(ledger) && (forall a :: a in ledger ==> a.id != newId) {
      assert FreshIds(ledger, ids) by {
        forall i, k | 0 <= i < |ids| && 0 <= k < |ledger| ensures ids[i] != ledger[k].id {
          assert ledger[k] in ledger;
        }
      }
      RecordKeepsUniqueIds(ledger, key, cands, ids, now);
    }
  }

  /** Recording candidates that are all already covered by unresolved alerts changes
      nothing: this is what makes a repeated check-alerts call create no duplicates. */
  lemma {:induction false} RecordCoveredIsNoOp(ledger: seq<Alert>, key: string, cands: seq<Candidate>, ids: seq<string>, now: Time)
    requires |ids| == |cands|
    requires forall c :: c in cands ==> OpenAlert(ledger, key, c.alertType).Some?
    ensures RecordCandidates(ledger, key, cands, ids, now) == (ledger, [])
    decreases |cands|
  {
    if |cands| > 0 {
      assert cands[0] in cands;
      assert forall c :: c in cands[1..] ==> c in cands;
      RecordCoveredIsNoOp(ledger, key, cands[1..], ids[1..], now);
    }
  }

  /** `resolve_alert`: not found when no alert has the id, and the ledger is left as it
      was; otherwise the (first) alert with that id is marked resolved at `now`,
      whether or not it was resolved already, and no other alert changes. */
  function Resolve(ledger: seq<Alert>, alertId: string, now: Time): (r: Result<seq<Alert>>)
    ensures r.Err? <==> forall a :: a in ledger ==> a.id != alertId
    ensures r.Err? ==> r.error == HttpError(NotFound, "Alert with ID " + alertId + " not found")
    ensures r.Ok? ==> |r.value| == |ledger|
    ensures r.Ok? ==> forall j :: 0 <= j < |ledger| && ledger[j].id != alertId ==> r.value[j] == ledger[j]
    ensures r.Ok? && UniqueIds(ledger) ==>
      forall j :: 0 <= j < |ledger| && ledger[j].id == alertId ==>
        r.value[j] == ledger[j].(isResolved := true, resolvedAt := Some(now))
  {
    match FirstIndex(ledger, (a: Alert) => a.id == alertId)
    case None => Err(HttpError(NotFound, "Alert with ID " + alertId + " not found"))
    case Some(i) => Ok(ledger[i := ledger[i].(isResolved := true, resolvedAt := Some(now))])
  }

  /** Resolving keeps both ledger invariants. */
  lemma ResolveKeepsInvariants(ledger: seq<Alert>, alertId: string, now: Time)
    requires UniqueIds(ledger) && AtMostOneOpen(ledger)
    ensures Resolve(ledger, alertId, now).Ok? ==>
      UniqueIds(Resolve(ledger, alertId, now).value) && AtMostOneOpen(Resolve(ledger, alertId, now).value)
  {
  }

  /** Resolution is permanent: no operation of the ledger reopens a resolved alert. */
  lemma ResolvedStaysResolved(ledger: seq<Alert>, alertId: string, key: string, cands: seq<Candidate>, ids: seq<string>, now: Time)
    requires |ids| == |cands|
    ensures Resolve(ledger, alertId, now).Ok? ==>
      forall j :: 0 <= j < |ledger| && ledger[j].isResolved ==> Resolve(ledger, alertId, now).value[j].isResolved
    ensures forall j :: 0 <= j < |ledger| && ledger[j].isResolved ==> RecordCandidates(ledger, key, cands, ids, now).0[j].isResolved
  {
  }

  /** Resolving an alert a second time moves its resolution time to the second call's
      `now`: there is no already-resolved guard. */
  lemma ReResolveOverwritesTime(ledger: seq<Alert>, alertId: string, t1: Time, t2: Time, j: nat)
    requires UniqueIds(ledger)
    requires j < |ledger| && ledger[j].id == alertId
    ensures Resolve(ledger, alertId, t1).Ok?
    ensures Resolve(Resolve(ledger, alertId, t1).value, alertId, t2).Ok?
    ensures Resolve(Resolve(ledger, alertId, t1).value, alertId, t2).value[j].resolvedAt == Some(t2)
  {
    assert ledger[j] in ledger;
    var l1 := Resolve(ledger, alertId, t1).value;
    assert UniqueIds(l1);
    assert l1[j] in l1;
  }

  /** Newest first: non-increasing creation time. */
  ghost predicate NewestFirst(alerts: seq<Alert>) {
    forall i, j :: 0 <= i < j < |alerts| ==> alerts[i].createdAt >= alerts[j].createdAt
  }

  /** The alerts of patient `key`, newest first (the unfiltered listing). */
  function AllAlerts(ledger: seq<Alert>, key: string): (r: seq<Alert>)
    ensures forall a :: a in r <==> a in ledger && a.patientKey == key
    ensures NewestFirst(r)
    ensures multiset(r) == multiset(Filter(ledger, (a: Alert) => a.patientKey == key))
  {
    SortBy(Filter(ledger, (a: Alert) => a.patientKey == key), (a: Alert) => -a.createdAt)
  }

  /** The unresolved alerts of patient `key`, newest first. */
  function ActiveAlerts(ledger: seq<Alert>, key: string): (r: seq<Alert>)
    ensures forall a :: a in r <==> a in ledger && a.patientKey == key && !a.isResolved
    ensures NewestFirst(r)
    ensures multiset(r) == multiset(Filter(ledger, (a: Alert) => a.patientKey == key && !a.isResolved))
  {
    SortBy(Filter(ledger, (a: Alert) => a.patientKey == key && !a.isResolved), (a: Alert) => -a.createdAt)
  }
}

=== FILE: lifecycle.dfy ===
/** Properties that span several handlers: a scan followed from upload through analysis
    to the monitoring views, and the two places where the handlers as written disagree
    with their evident intent. */
module Lifecycle {
  import opened Outcomes
  import opened Text
  import opened Records
  import opened Trend
  import opened MedicalFormats
  import opened UploadEndpoint
  import opened SegmentEndpoint
  import opened AnalyzeEndpoint
  import opened Monitor

  /** A scan appended under an id no earlier scan has is the one a lookup by that id finds. */
  lemma AppendedScanIsFound(db: Db, s: Scan)
    requires forall t :: t in db.scans ==> t.id != s.id
    ensures FindScan(db.(scans := db.scans + [s]), s.id) == Some(s)
  {
    var db' := db.(scans := db.scans + [s]);
    assert s in db'.scans;
    var r := FindScan(db', s.id);
    assert r.value in db.scans + [s];
  }

  /** A scan stored by the multi-modality upload can always be routed to an analyzer,
      so on it the handler as written and the corrected one agree. */
  lemma UploadedScansAreRoutable(db: Db, form: UploadForm, scanId: string, token: string, fileSize: int, segId: string, run: Analyzer)
    requires UploadImage(db, form, scanId, token, fileSize).Ok?
    requires forall s :: s in db.scans ==> s.id != scanId
    ensures var db1 := UploadImage(db, form, scanId, token, fileSize).value.0;
      && FindScan(db1, scanId).Some?
      && !Dispatch(FindScan(db1, scanId).value, run).NoAnalyzer?
      && Analyze(db1, scanId, segId, run) == AnalyzeCorrected(db1, scanId, segId, run)
  {
    var db1 := UploadImage(db, form, scanId, token, fileSize).value.0;
    var s := db1.scans[|db.scans|];
    assert db1 == db.(scans := db.scans + [s]);
    AppendedScanIsFound(db, s);
    StoredModalityIsCanonical(db, form, scanId, token, fileSize);
    AnalyzeCorrectedAgreesOnSupported(db1, scanId, segId, run);
  }

  /** The store of the worked examples: patient "P001" with internal id "pk-1", no scans. */
  const Clinic: Db := Db([Patient("pk-1", "P001")], [], [], [])

  /** A PET volume uploaded through the single-modality endpoint (which stores the
      modality unchecked). */
  const PetForm: UploadForm := UploadForm("brain.nii", "P001", 0, "T1", "PET", "Brain")

  lemma LowerBrainNii()
    ensures Lower("brain.nii") == "brain.nii"
  {
    assert Lower("ii") == "ii";
    assert Lower("nii") == "nii";
    assert Lower(".nii") == ".nii";
  }

  /** The scan the single-modality upload stores for the PET form. */
  const PetScan: Scan := Scan("s-1", "pk-1", 0, "T1", StoredPath("u-1", "brain.nii"), 1, "PET", "Brain")

  lemma PetUploadStored()
    ensures UploadScan(Clinic, PetForm, "s-1", "u-1", 1).Ok?
    ensures UploadScan(Clinic, PetForm, "s-1", "u-1", 1).value.0 == Clinic.(scans := [PetScan])
  {
    LowerBrainNii();
    assert EndsWith(Lower(PetForm.filename), ".nii");
    assert ValidateVolumeFile(PetForm.filename);
    assert FindPatient(Clinic, "P001") == Some(Patient("pk-1", "P001"));
  }

  lemma PetIsNotRoutable(run: Analyzer)
    ensures Dispatch(PetScan, run) == NoAnalyzer("PET")
  {
    assert Upper("PET") == "PET";
  }

  lemma PetAnalysis(run: Analyzer)
    ensures Analyze(Clinic.(scans := [PetScan]), "s-1", "g-1", run) == Err(HttpError(500, "Analysis failed: 400: Unsupported modality: PET"))
    ensures AnalyzeCorrected(Clinic.(scans := [PetScan]), "s-1", "g-1", run) == Err(HttpError(400, "Unsupported modality: PET"))
  {
    var db1 := Clinic.(scans := [PetScan]);
    AppendedScanIsFound(Clinic, PetScan);
    assert FindSegmentation(db1, "s-1").None?;
    PetIsNotRoutable(run);
    PetErrorTexts();
  }

  /** Analysing that PET scan answers 500 "Analysis failed: 400: Unsupported modality:
      PET", not the 400 the handler raises for it; the corrected handler answers 400. */
  lemma UnsupportedModalityAnswersServerError(run: Analyzer)
    ensures UploadScan(Clinic, PetForm, "s-1", "u-1", 1).Ok?
    ensures var db1 := UploadScan(Clinic, PetForm, "s-1", "u-1", 1).value.0;
      && Analyze(db1, "s-1", "g-1", run) == Err(HttpError(500, "Analysis failed: 400: Unsupported modality: PET"))
      && AnalyzeCorrected(db1, "s-1", "g-1", run) == Err(HttpError(400, "Unsupported modality: PET"))
  {
    PetUploadStored();
    PetAnalysis(run);
  }

  /** As written, the trend and check-alerts views of a patient whose external identifier
      is no scan's patient column (every patient whose internal id differs from it, once
      uploads store internal ids) are empty: no trend point, no candidate, no new alert. */
  lemma ExternalKeySeesNoScans(db: Db, externalId: string, now: Time, newId: string, fmt: real -> string)
    requires FindPatient(db, externalId).Some?
    requires forall s :: s in db.scans ==> s.patientKey != externalId
    ensures GetTumorTrend(db, externalId) == Ok([])
    ensures var r := CheckPatientAlerts(db, externalId, now, newId, fmt);
      r.Ok? && r.value.0 == db && r.value.1.found == [] && r.value.1.created == []
  {
    TrendEmptyIffNothingSegmented(db, externalId);
  }

  /** What a successful multi-modality upload adds: one scan with the new id, keyed by the
      patient's internal id. */
  lemma UploadedScan(db: Db, form: UploadForm, scanId: string, token: string, fileSize: int) returns (s: Scan)
    requires UploadImage(db, form, scanId, token, fileSize).Ok?
    ensures UploadImage(db, form, scanId, token, fileSize).value.0 == db.(scans := db.scans + [s])
    ensures s.id == scanId && s.patientKey == FindPatient(db, form.patientId).value.id
  {
    s := UploadImage(db, form, scanId, token, fileSize).value.0.scans[|db.scans|];
  }

  /** What a successful analysis adds: one segmentation of the analysed scan. */
  lemma AnalysedSegmentation(db: Db, scanId: string, segId: string, run: Analyzer) returns (g: Segmentation)
    requires Analyze(db, scanId, segId, run).Ok?
    ensures Analyze(db, scanId, segId, run).value.0 == db.(segmentations := db.segmentations + [g])
    ensures g.scanId == scanId && g.id == segId
  {
    var d := Dispatch(FindScan(db, scanId).value, run);
    g := SegmentationFrom(segId, scanId, d.fields);
  }

  /** Upload a scan for a patient and analyse it: the corrected trend lists the scan. */
  lemma UploadAnalyseTrend(db: Db, form: UploadForm, scanId: string, token: string, fileSize: int, segId: string, run: Analyzer)
    requires UploadImage(db, form, scanId, token, fileSize).Ok?
    requires forall s :: s in db.scans ==> s.id != scanId
    requires Analyze(UploadImage(db, form, scanId, token, fileSize).value.0, scanId, segId, run).Ok?
    ensures var db2 := Analyze(UploadImage(db, form, scanId, token, fileSize).value.0, scanId, segId, run).value.0;
      && GetTumorTrendCorrected(db2, form.patientId).Ok?
      && (exists t :: t in GetTumorTrendCorrected(db2, form.patientId).value && t.scanId == scanId)
  {
    var p := FindPatient(db, form.patientId).value;
    var s := UploadedScan(db, form, scanId, token, fileSize);
    var db1 := db.(scans := db.scans + [s]);
    AppendedScanIsFound(db, s);
    var g := AnalysedSegmentation(db1, scanId, segId, run);
    var db2 := db1.(segmentations := db1.segmentations + [g]);
    assert FindPatient(db2, form.patientId) == Some(p);
    assert s in db2.scans && g in db2.segmentations;
    assert Joined(db2.scans, db2.segmentations, p.id, PointOf(s, g));
    assert PointOf(s, g) in GetTumorTrendCorrected(db2, form.patientId).value;
  }

  /** The same upload and analysis, as written: when the patient's internal id differs
      from the external one and no earlier scan is keyed by the external identifier, the
      trend stays empty. */
  lemma UploadAnalyseTrendAsWritten(db: Db, form: UploadForm, scanId: string, token: string, fileSize: int, segId: string, run: Analyzer)
    requires UploadImage(db, form, scanId, token, fileSize).Ok?
    requires Analyze(UploadImage(db, form, scanId, token, fileSize).value.0, scanId, segId, run).Ok?
    requires FindPatient(db, form.patientId).value.id != form.patientId
    requires forall s :: s in db.scans ==> s.patientKey != form.patientId
    ensures GetTumorTrend(Analyze(UploadImage(db, form, scanId, token, fileSize).value.0, scanId, segId, run).value.0, form.patientId)
      == Ok([])
  {
    var s := UploadedScan(db, form, scanId, token, fileSize);
    var db1 := db.(scans := db.scans + [s]);
    var g := AnalysedSegmentation(db1, scanId, segId, run);
    var db2 := db1.(segmentations := db1.segmentations + [g]);
    assert FindPatient(db2, form.patientId) == FindPatient(db, form.patientId);
    assert forall t :: t in db2.scans ==> t in db.scans || t == s;
    ExternalKeySeesNoScans(db2, form.patientId, 0, "", (x: real) => "");
  }

  /** The two ways of producing a segmentation gate on the same lookup: once a scan is
      analysed the segmentation endpoint refuses it, and once it is segmented the
      analysis endpoint refuses it. */
  lemma AnalysisAndSegmentationExclusive(db: Db, scanId: string, segId: string, segId2: string, run: Analyzer, voxels: Option<nat>, token: string)
    ensures Analyze(db, scanId, segId, run).Ok? ==>
      ProcessSegmentation(Analyze(db, scanId, segId, run).value.0, scanId, segId2, voxels, token) == Err(AlreadySegmented(scanId))
    ensures ProcessSegmentation(db, scanId, segId2, voxels, token).Ok? ==>
      Analyze(ProcessSegmentation(db, scanId, segId2, voxels, token).value.0, scanId, segId, run) == Err(AlreadyAnalysed(scanId))
  {
    if Analyze(db, scanId, segId, run).Ok? {
      var g := AnalysedSegmentation(db, scanId, segId, run);
      var db1 := db.(segmentations := db.segmentations + [g]);
      assert FindScan(db1, scanId) == FindScan(db, scanId);
      assert g in db1.segmentations;
    }
    if ProcessSegmentation(db, scanId, segId2, voxels, token).Ok? {
      var db1 := ProcessSegmentation(db, scanId, segId2, voxels, token).value.0;
      assert FindScan(db1, scanId) == FindScan(db, scanId);
    }
  }
}

=== FILE: monitor.dfy ===
/** The monitoring endpoints: the dashboard read view, the trend and alert listings,
    the check-alerts action and alert resolution. Each takes the store as a value and
    `now` as a parameter.

    As written, the trend and the check-alerts query select scans whose patient column
    equals the EXTERNAL patient identifier, while scans store the internal `patients.id`.
    The `...Corrected` variants select by the internal id. */
module Monitor {
  import opened Outcomes
  import opened Seqs
  import opened Records
  import opened Trend
  import opened Growth
  import opened Ledger

  datatype Dashboard = Dashboard(
    patient: Patient,
    scans: seq<Scan>,
    latestSegmentation: Option<Segmentation>,
    alerts: seq<Alert>,
    tumorTrend: seq<TrendPoint>)

  /** All scans of the patient `key`, most recent first. */
  function ScansNewestFirst(db: Db, key: string): (r: seq<Scan>)
    ensures forall s :: s in r <==> s in db.scans && s.patientKey == key
    ensures forall i, j :: 0 <= i < j < |r| ==> r[i].scanDate >= r[j].scanDate
    ensures multiset(r) == multiset(Filter(db.scans, (s: Scan) => s.patientKey == key))
  {
    SortBy(Filter(db.scans, (s: Scan) => s.patientKey == key), (s: Scan) => -s.scanDate)
  }

  /** The segmentation of the newest of `scans` (ordered newest first), or nothing when
      that scan has none, whatever older scans have. */
  function LatestSegmentation(db: Db, scans: seq<Scan>): (r: Option<Segmentation>)
    ensures |scans| == 0 ==> r.None?
    ensures |scans| > 0 ==> (r.None? <==> forall g :: g in db.segmentations ==> g.scanId != scans[0].id)
    ensures r.Some? ==> r.value in db.segmentations && r.value.scanId == scans[0].id
  {
    if |scans| == 0 then None else FindSegmentation(db, scans[0].id)
  }

  /** The dashboard of patient `p`, whose trend is computed for the scan key `trendKey`.
      Its scans are all of the patient's scans, newest first; its latest segmentation is
      that of the newest scan (or nothing); its alerts are exactly the patient's
      unresolved alerts, newest first. */
  function DashboardFor(db: Db, p: Patient, trendKey: string): (d: Dashboard)
    ensures d.patient == p
    ensures forall s :: s in d.scans <==> s in db.scans && s.patientKey == p.id
    ensures forall i, j :: 0 <= i < j < |d.scans| ==> d.scans[i].scanDate >= d.scans[j].scanDate
    ensures multiset(d.scans) == multiset(Filter(db.scans, (s: Scan) => s.patientKey == p.id))
    ensures d.latestSegmentation == LatestSegmentation(db, d.scans)
    ensures forall a :: a in d.alerts <==> a in db.alerts && a.patientKey == p.id && !a.isResolved
    ensures NewestFirst(d.alerts)
    ensures multiset(d.alerts) == multiset(Filter(db.alerts, (a: Alert) => a.patientKey == p.id && !a.isResolved))
    ensures forall t :: t in d.tumorTrend <==> Joined(db.scans, db.segmentations, trendKey, t)
    ensures forall i, j :: 0 <= i < j < |d.tumorTrend| ==> d.tumorTrend[i].scanDate <= d.tumorTrend[j].scanDate
    ensures multiset(d.tumorTrend) == multiset(JoinRows(db.scans, db.segmentations, trendKey))
  {
    var scans := ScansNewestFirst(db, p.id);
    Dashboard(p, scans, LatestSegmentation(db, scans), ActiveAlerts(db.alerts, p.id), CalculateTumorTrend(db, trendKey))
  }

  /** The dashboard's latest segmentation belongs to a scan of the patient with the
      greatest scan date. There is none exactly when the patient has no scans or that
      scan has no segmentation, whatever older scans have. */
  lemma LatestSegmentationIsOfNewestScan(db: Db, p: Patient, trendKey: string)
    ensures var d := DashboardFor(db, p, trendKey);
      && (|d.scans| == 0 <==> forall s :: s in db.scans ==> s.patientKey != p.id)
      && (d.latestSegmentation.None? <==>
            |d.scans| == 0 || forall g :: g in db.segmentations ==> g.scanId != d.scans[0].id)
    ensures var d := DashboardFor(db, p, trendKey);
      d.latestSegmentation.Some? ==>
        && d.scans[0] in db.scans && d.scans[0].patientKey == p.id
        && d.latestSegmentation.value.scanId == d.scans[0].id
        && forall s :: s in db.scans && s.patientKey == p.id ==> s.scanDate <= d.scans[0].scanDate
  {
    var d := DashboardFor(db, p, trendKey);
    assert d.scans == ScansNewestFirst(db, p.id);
    NewestScanDominates(db, p.id);
  }

  /** The first of the patient's scans, newest first, is one of theirs and at least as
      recent as every other; there is none exactly when they have no scans. */
  lemma NewestScanDominates(db: Db, key: string)
    ensures var scans := ScansNewestFirst(db, key);
      && (|scans| == 0 <==> forall s :: s in db.scans ==> s.patientKey != key)
      && (|scans| > 0 ==>
            && scans[0] in db.scans && scans[0].patientKey == key
            && forall s :: s in db.scans && s.patientKey == key ==> s.scanDate <= scans[0].scanDate)
  {
    var scans := ScansNewestFirst(db, key);
    if |scans| > 0 {
      assert scans[0] in scans;
      forall s | s in db.scans && s.patientKey == key ensures s.scanDate <= scans[0].scanDate {
        assert s in scans;
        var k :| 0 <= k < |scans| && scans[k] == s;
        if k > 0 {
          assert scans[0].scanDate >= scans[k].scanDate;
        }
      }
    }
  }

  /** `get_patient_dashboard` as written: 404 for an unknown patient; the trend is
      selected with the external identifier. */
  function GetPatientDashboard(db: Db, externalId: string): (r: Result<Dashboard>)
    ensures r.Err? <==> FindPatient(db, externalId).None?
    ensures r.Err? ==> r.error == PatientNotFound(externalId)
    ensures r.Ok? ==> r.value == DashboardFor(db, FindPatient(db, externalId).value, externalId)
  {
    match FindPatient(db, externalId)
    case None => Err(PatientNotFound(externalId))
    case Some(p) => Ok(DashboardFor(db, p, externalId))
  }

  /** `get_patient_dashboard` with the trend selected by the internal id. */
  function GetPatientDashboardCorrected(db: Db, externalId: string): (r: Result<Dashboard>)
    ensures r.Err? <==> FindPatient(db, externalId).None?
    ensures r.Err? ==> r.error == PatientNotFound(externalId)
    ensures r.Ok? ==>
      var p := FindPatient(db, externalId).value;
      r.value == DashboardFor(db, p, p.id)
  {
    match FindPatient(db, externalId)
    case None => Err(PatientNotFound(externalId))
    case Some(p) => Ok(DashboardFor(db, p, p.id))
  }

  /** `get_tumor_trend` as written: 404 for an unknown patient, otherwise the trend of
      the scans whose patient column equals the external identifier. */
  function GetTumorTrend(db: Db, externalId: string): (r: Result<seq<TrendPoint>>)
    ensures r.Err? <==> FindPatient(db, externalId).None?
    ensures r.Err? ==> r.error == PatientNotFound(externalId)
    ensures r.Ok? ==> forall t :: t in r.value <==> Joined(db.scans, db.segmentations, externalId, t)
    ensures r.Ok? ==> forall i, j :: 0 <= i < j < |r.value| ==> r.value[i].scanDate <= r.value[j].scanDate
    ensures r.Ok? ==> multiset(r.value) == multiset(JoinRows(db.scans, db.segmentations, externalId))
  {
    match FindPatient(db, externalId)
    case None => Err(PatientNotFound(externalId))
    case Some(p) => Ok(CalculateTumorTrend(db, externalId))
  }

  /** `get_tumor_trend` selecting the patient's scans by the internal id. */
  function GetTumorTrendCorrected(db: Db, externalId: string): (r: Result<seq<TrendPoint>>)
    ensures r.Err? <==> FindPatient(db, externalId).None?
    ensures r.Err? ==> r.error == PatientNotFound(externalId)
    ensures r.Ok? ==> forall t :: t in r.value <==> Joined(db.scans, db.segmentations, FindPatient(db, externalId).value.id, t)
    ensures r.Ok? ==> forall i, j :: 0 <= i < j < |r.value| ==> r.value[i].scanDate <= r.value[j].scanDate
    ensures r.Ok? ==> multiset(r.value) == multiset(JoinRows(db.scans, db.segmentations, FindPatient(db, externalId).value.id))
  {
    match FindPatient(db, externalId)
    case None => Err(PatientNotFound(externalId))
    case Some(p) => Ok(CalculateTumorTrend(db, p.id))
  }

  /** `get_patient_alerts`: 404 for an unknown patient, otherwise all of the patient's
      alerts, resolved or not, newest first. */
  function GetPatientAlerts(db: Db, externalId: string): (r: Result<seq<Alert>>)
    ensures r.Err? <==> FindPatient(db, externalId).None?
    ensures r.Err? ==> r.error == PatientNotFound(externalId)
    ensures r.Ok? ==> forall a :: a in r.value <==> a in db.alerts && a.patientKey == FindPatient(db, externalId).value.id
    ensures r.Ok? ==> NewestFirst(r.value)
    ensures r.Ok? ==>
      multiset(r.value) == multiset(Filter(db.alerts, (a: Alert) => a.patientKey == FindPatient(db, externalId).value.id))
  {
    match FindPatient(db, externalId)
    case None => Err(PatientNotFound(externalId))
    case Some(p) => Ok(AllAlerts(db.alerts, p.id))
  }

  /** What a check-alerts call reports: the candidates found and the alerts created. */
  datatype CheckReport = CheckReport(found: seq<Candidate>, created: seq<Alert>)

  /** The body of `check_patient_alerts` for patient `p`, classifying the scans whose
      patient column is `scanKey`; `newId` is the id a created alert receives. Only alerts
      are added: at most one candidate is found and at most that many alerts are created,
      each an unresolved record of a candidate, for `p`, created now. */
  function CheckAlertsFor(db: Db, p: Patient, scanKey: string, now: Time, newId: string, fmt: real -> string)
    : (r: (Db, CheckReport))
    ensures r.1.found == CheckForAlerts(db, scanKey, now, fmt)
    ensures |r.1.created| <= |r.1.found| <= 1
    ensures r.0 == db.(alerts := db.alerts + r.1.created)
    ensures forall a :: a in r.1.created ==>
      && a.id == newId && a.patientKey == p.id && !a.isResolved && a.createdAt == now && a.resolvedAt == None
      && exists c :: c in r.1.found && a.alertType == c.alertType && a.severity == c.severity && a.message == c.message
  {
    var cands := CheckForAlerts(db, scanKey, now, fmt);
    var rec := RecordCandidates(db.alerts, p.id, cands, [newId][..|cands|], now);
    (db.(alerts := rec.0), CheckReport(cands, rec.1))
  }

  /** Check-alerts keeps the ledger invariants: still at most one unresolved alert per
      (patient, type), ids still unique when `newId` is fresh. Afterwards every candidate
      found is covered by an unresolved alert, and an alert was created only where none
      of its type was unresolved. */
  lemma CheckAlertsKeepsLedgerInvariants(db: Db, p: Patient, scanKey: string, now: Time, newId: string, fmt: real -> string)
    ensures var r := CheckAlertsFor(db, p, scanKey, now, newId, fmt);
      && (AtMostOneOpen(db.alerts) ==> AtMostOneOpen(r.0.alerts))
      && (UniqueIds(db.alerts) && (forall a :: a in db.alerts ==> a.id != newId) ==> UniqueIds(r.0.alerts))
      && (forall c :: c in r.1.found ==> OpenAlert(r.0.alerts, p.id, c.alertType).Some?)
      && (forall a :: a in r.1.created ==> OpenAlert(db.alerts, p.id, a.alertType).None?)
  {
    var cands := CheckForAlerts(db, scanKey, now, fmt);
    RecordWithOneId(db.alerts, p.id, cands, newId, now);
  }

  /** `check_patient_alerts` as written: 404 for an unknown patient; the scans are
      selected with the external identifier and the alerts keyed by the internal id. */
  function CheckPatientAlerts(db: Db, externalId: string, now: Time, newId: string, fmt: real -> string)
    : (r: Result<(Db, CheckReport)>)
    ensures r.Err? <==> FindPatient(db, externalId).None?
    ensures r.Err? ==> r.error == PatientNotFound(externalId)
    ensures r.Ok? ==> r.value == CheckAlertsFor(db, FindPatient(db, externalId).value, externalId, now, newId, fmt)
  {
    match FindPatient(db, externalId)
    case None => Err(PatientNotFound(externalId))
    case Some(p) => Ok(CheckAlertsFor(db, p, externalId, now, newId, fmt))
  }

  /** `check_patient_alerts` selecting the patient's scans by the internal id. */
  function CheckPatientAlertsCorrected(db: Db, externalId: string, now: Time, newId: string, fmt: real -> string)
    : (r: Result<(Db, CheckReport)>)
    ensures r.Err? <==> FindPatient(db, externalId).None?
    ensures r.Ok? ==> r.value == CheckAlertsFor(db, FindPatient(db, externalId).value, FindPatient(db, externalId).value.id, now, newId, fmt)
  {
    match FindPatient(db, externalId)
    case None => Err(PatientNotFound(externalId))
    case Some(p) => Ok(CheckAlertsFor(db, p, p.id, now, newId, fmt))
  }

  /** `resolve_alert` on the store: 404 for an unknown alert id; otherwise the alert with
      that id is resolved at `now` and nothing else changes. */
  function ResolveAlert(db: Db, alertId: string, now: Time): (r: Result<Db>)
    ensures r.Err? <==> forall a :: a in db.alerts ==> a.id != alertId
    ensures r.Err? ==> r.error == HttpError(NotFound, "Alert with ID " + alertId + " not found")
    ensures r.Ok? ==>
      && r.value.patients == db.patients && r.value.scans == db.scans
      && r.value.segmentations == db.segmentations
    ensures r.Ok? ==>
      && |r.value.alerts| == |db.alerts|
      && forall j :: 0 <= j < |db.alerts| && db.alerts[j].id != alertId ==> r.value.alerts[j] == db.alerts[j]
    ensures r.Ok? && UniqueIds(db.alerts) ==>
      forall j :: 0 <= j < |db.alerts| && db.alerts[j].id == alertId ==>
        r.value.alerts[j] == db.alerts[j].(isResolved := true, resolvedAt := Some(now))
  {
    match Resolve(db.alerts, alertId, now)
    case Err(e) => Err(e)
    case Ok(ledger) => Ok(db.(alerts := ledger))
  }

  /** Running check-alerts twice at the same time creates nothing the second time, so
      there is still exactly one unresolved alert per (patient, type). */
  lemma CheckAlertsTwiceCreatesOnce(db: Db, externalId: string, now: Time, id1: string, id2: string, fmt: real -> string)
    requires CheckPatientAlerts(db, externalId, now, id1, fmt).Ok?
    ensures var db1 := CheckPatientAlerts(db, externalId, now, id1, fmt).value.0;
      && CheckPatientAlerts(db1, externalId, now, id2, fmt).Ok?
      && CheckPatientAlerts(db1, externalId, now, id2, fmt).value.0 == db1
      && CheckPatientAlerts(db1, externalId, now, id2, fmt).value.1.created == []
  {
    var p := FindPatient(db, externalId).value;
    var (db1, rep1) := CheckAlertsFor(db, p, externalId, now, id1, fmt);
    assert db1.patients == db.patients && db1.scans == db.scans && db1.segmentations == db.segmentations;
    assert FindPatient(db1, externalId) == FindPatient(db, externalId);
    var cands := CheckForAlerts(db1, externalId, now, fmt);
    assert cands == rep1.found;
    CheckAlertsKeepsLedgerInvariants(db, p, externalId, now, id1, fmt);
    RecordCoveredIsNoOp(db1.alerts, p.id, cands, [id2][..|cands|], now);
  }
}

=== FILE: outcomes.dfy ===
/** Optional values and the HTTP-style outcomes that the request handlers produce. */
module Outcomes {

  datatype Option<+T> = None | Some(value: T)

  /** An HTTPException raised by a handler: its status code and its detail text. */
  datatype HttpError = HttpError(status: int, detail: string)

  const BadRequest: int := 400
  const NotFound: int := 404
  const InternalServerError: int := 500

  /** Either the handler's value or the HTTPException it raised. */
  datatype Result<+T> = Ok(value: T) | Err(error: HttpError)
}

=== FILE: records.dfy ===
/** The persisted records (patients, scans, segmentations, monitoring alerts) and the
    lookups the handlers run against them. The store is a value: one sequence per table,
    in insertion order, so that a query's `.first()` is the first match in that order. */
module Records {
  import opened Outcomes
  import opened Seqs

  /** A point in time, in microseconds (the resolution of a Python `datetime`). */
  type Time = int

  const MicrosPerDay: int := 86_400_000_000

  /** `(later - earlier).days`: whole days between two times, rounded towards minus
      infinity as `timedelta.days` is. */
  function DaysBetween(earlier: Time, later: Time): (d: int)
    ensures d * MicrosPerDay <= later - earlier < (d + 1) * MicrosPerDay
  {
    (later - earlier) / MicrosPerDay
  }

  /** A patient: `id` is the internal primary key, `patientId` the external identifier
      that appears in request paths. */
  datatype Patient = Patient(id: string, patientId: string)

  /** A scan; `patientKey` is the `scans.patient_id` column, a reference to `patients.id`. */
  datatype Scan = Scan(
    id: string,
    patientKey: string,
    scanDate: Time,
    scanType: string,
    filePath: string,
    fileSize: int,
    modality: string,
    bodyPart: string)

  /** A segmentation result; `scanId` references `scans.id`. */
  datatype Segmentation = Segmentation(
    id: string,
    scanId: string,
    maskPath: string,
    volumeCc: real,
    volumeMm3: real,
    confidence: real,
    segmentationMethod: string,
    processingSeconds: real)

  datatype AlertType = RapidGrowth | ModerateGrowth

  datatype Severity = Low | Medium | High | Critical

  /** A monitoring alert; `patientKey` references `patients.id`. */
  datatype Alert = Alert(
    id: string,
    patientKey: string,
    alertType: AlertType,
    severity: Severity,
    message: string,
    isResolved: bool,
    createdAt: Time,
    resolvedAt: Option<Time>)

  datatype Db = Db(
    patients: seq<Patient>,
    scans: seq<Scan>,
    segmentations: seq<Segmentation>,
    alerts: seq<Alert>)

  /** The 404 every handler raises for an unknown external patient identifier. */
  function PatientNotFound(externalId: string): HttpError {
    HttpError(NotFound, "Patient with ID " + externalId + " not found")
  }

  /** The 404 raised for an unknown scan id. */
  function ScanNotFound(scanId: string): HttpError {
    HttpError(NotFound, "Scan with ID " + scanId + " not found")
  }

  /** The patient whose external identifier is `externalId`. */
  function FindPatient(db: Db, externalId: string): (r: Option<Patient>)
    ensures r.Some? ==> r.value in db.patients && r.value.patientId == externalId
    ensures r.None? <==> forall p :: p in db.patients ==> p.patientId != externalId
  {
    First(db.patients, (p: Patient) => p.patientId == externalId)
  }

  /** The scan whose primary key is `scanId`. */
  function FindScan(db: Db, scanId: string): (r: Option<Scan>)
    ensures r.Some? ==> r.value in db.scans && r.value.id == scanId
    ensures r.None? <==> forall s :: s in db.scans ==> s.id != scanId
  {
    First(db.scans, (s: Scan) => s.id == scanId)
  }

  /** The (first) segmentation recorded for the scan `scanId`. */
  function FindSegmentation(db: Db, scanId: string): (r: Option<Segmentation>)
    ensures r.Some? ==> r.value in db.segmentations && r.value.scanId == scanId
    ensures r.None? <==> forall g :: g in db.segmentations ==> g.scanId != scanId
  {
    First(db.segmentations, (g: Segmentation) => g.scanId == scanId)
  }

  /** No two segmentation records belong to the same scan. */
  ghost predicate OneSegmentationPerScan(segs: seq<Segmentation>) {
    forall i, j :: 0 <= i < j < |segs| ==> segs[i].scanId != segs[j].scanId
  }
}

=== FILE: segment.dfy ===
/** The single-modality scan pipeline: upload (`upload_scan`), the simulated
    segmentation (`simulate_tumor_segmentation`), `process_segmentation` and
    `get_segmentation`. */
module SegmentEndpoint {
  import opened Outcomes
  import opened Text
  import opened Records
  import opened MedicalFormats
  import UploadEndpoint

  const MasksDir: string := "data/masks"

  /** The method name every segmentation created by this pipeline records (the
      column's default). */
  const TumorTraceMethod: string := "TumorTrace"

  const VolumeFormatError: HttpError :=
    HttpError(BadRequest, "Unsupported file format. Supported formats: .nii.gz, .nii, .dcm, .dicom, .mha, .mhd")

  /** `upload_scan`: no file name, then an unsupported volume format, then an unknown
      patient; on success one scan is appended with the modality exactly as submitted. */
  function UploadScan(db: Db, form: UploadEndpoint.UploadForm, scanId: string, token: string, fileSize: int)
    : (r: Result<(Db, UploadEndpoint.UploadReceipt)>)
    ensures form.filename == [] ==> r == Err(UploadEndpoint.NoFilename)
    ensures form.filename != [] && !ValidateVolumeFile(form.filename) ==> r == Err(VolumeFormatError)
    ensures form.filename != [] && ValidateVolumeFile(form.filename) && FindPatient(db, form.patientId).None?
      ==> r == Err(PatientNotFound(form.patientId))
    ensures r.Ok? <==> form.filename != [] && ValidateVolumeFile(form.filename) && FindPatient(db, form.patientId).Some?
    ensures r.Ok? ==>
      var db' := r.value.0;
      && db'.patients == db.patients && db'.segmentations == db.segmentations && db'.alerts == db.alerts
      && |db'.scans| == |db.scans| + 1 && db'.scans[..|db.scans|] == db.scans
      && db'.scans[|db.scans|].id == scanId
      && db'.scans[|db.scans|].patientKey == FindPatient(db, form.patientId).value.id
      && db'.scans[|db.scans|].modality == form.modality
      && EndsWith(db'.scans[|db.scans|].filePath, StoredExtension(form.filename))
    ensures r.Ok? ==> r.value.1 == UploadEndpoint.UploadReceipt(form.filename, "uploaded", scanId, "Scan uploaded successfully")
  {
    if form.filename == [] then Err(UploadEndpoint.NoFilename)
    else if !ValidateVolumeFile(form.filename) then Err(VolumeFormatError)
    else
      match FindPatient(db, form.patientId)
      case None => Err(PatientNotFound(form.patientId))
      case Some(p) =>
        var scan := Scan(scanId, p.id, form.scanDate, form.scanType, UploadEndpoint.StoredPath(token, form.filename),
                         fileSize, form.modality, form.bodyPart);
        Ok((db.(scans := db.scans + [scan]),
            UploadEndpoint.UploadReceipt(form.filename, "uploaded", scanId, "Scan uploaded successfully")))
  }

  datatype SimulatedSegmentation = SimulatedSegmentation(
    maskPath: string,
    volumeMm3: real,
    volumeCc: real,
    confidence: real,
    processingSeconds: real)

  /** Whether the path names a NIfTI file (case-sensitive, as the loader branch tests). */
  predicate IsNiftiPath(path: string) {
    EndsWith(path, ".nii.gz") || EndsWith(path, ".nii")
  }

  /** `simulate_tumor_segmentation`. The image itself is not modelled: `voxels` is the
      number of voxels above the 95th intensity percentile when the NIfTI file loads, and
      `None` when loading raises, which selects the fallback result. `token` stands for
      the random part of the mask file name. */
  function SimulateTumorSegmentation(filePath: string, voxels: Option<nat>, token: string): (r: SimulatedSegmentation)
    ensures r.volumeCc * 1000.0 == r.volumeMm3 && 0.0 <= r.volumeMm3
    ensures 0.0 < r.confidence < 1.0 && 0.0 < r.processingSeconds
    ensures IsNiftiPath(filePath) && voxels.Some? ==> r.volumeMm3 == voxels.value as real && r.confidence == 0.85
    ensures IsNiftiPath(filePath) && voxels.None? ==> r.volumeCc == 35.0 && r.confidence == 0.75
    ensures !IsNiftiPath(filePath) ==> r.volumeCc == 42.7 && r.confidence == 0.82
    ensures EndsWith(r.maskPath, ".nii.gz")
  {
    var ext := ".nii.gz";
    var prefix :=
      if !IsNiftiPath(filePath) then "/masks/simulated_mask_"
      else if voxels.Some? then MasksDir + "/mask_"
      else "/masks/fallback_mask_";
    var mask := prefix + token + ext;
    assert mask[|mask| - |ext|..] == ext;
    if !IsNiftiPath(filePath) then
      SimulatedSegmentation(mask, 42700.0, 42.7, 0.82, 3.0)
    else
      match voxels
      case Some(n) => SimulatedSegmentation(mask, n as real, n as real / 1000.0, 0.85, 2.5)
      case None => SimulatedSegmentation(mask, 35000.0, 35.0, 0.75, 1.5)
  }

  /** The response body shared by `process_segmentation` and `get_segmentation`. */
  datatype SegmentationResponse = SegmentationResponse(
    scanId: string,
    segmentationId: string,
    volumeCc: real,
    volumeMm3: real,
    confidence: real,
    processingSeconds: real,
    maskPath: string)

  function ResponseOf(g: Segmentation): SegmentationResponse {
    SegmentationResponse(g.scanId, g.id, g.volumeCc, g.volumeMm3, g.confidence, g.processingSeconds, g.maskPath)
  }

  function AlreadySegmented(scanId: string): HttpError {
    HttpError(BadRequest, "Segmentation already exists for scan " + scanId)
  }

  /** `process_segmentation`: 404 for an unknown scan, 400 when the scan already has a
      segmentation, otherwise one segmentation is appended for it, computed from the
      scan's file path. */
  function ProcessSegmentation(db: Db, scanId: string, segId: string, voxels: Option<nat>, token: string)
    : (r: Result<(Db, SegmentationResponse)>)
    ensures FindScan(db, scanId).None? ==> r == Err(ScanNotFound(scanId))
    ensures FindScan(db, scanId).Some? && FindSegmentation(db, scanId).Some? ==> r == Err(AlreadySegmented(scanId))
    ensures r.Ok? <==> FindScan(db, scanId).Some? && FindSegmentation(db, scanId).None?
    ensures r.Ok? ==>
      var db' := r.value.0;
      && db'.patients == db.patients && db'.scans == db.scans && db'.alerts == db.alerts
      && |db'.segmentations| == |db.segmentations| + 1
      && db'.segmentations[..|db.segmentations|] == db.segmentations
      && FindSegmentation(db', scanId) == Some(db'.segmentations[|db.segmentations|])
      && db'.segmentations[|db.segmentations|].id == segId
      && db'.segmentations[|db.segmentations|].segmentationMethod == TumorTraceMethod
      && db'.segmentations[|db.segmentations|].volumeCc * 1000.0 == db'.segmentations[|db.segmentations|].volumeMm3
      && r.value.1 == ResponseOf(db'.segmentations[|db.segmentations|])
  {
    match FindScan(db, scanId)
    case None => Err(ScanNotFound(scanId))
    case Some(scan) =>
      if FindSegmentation(db, scanId).Some? then Err(AlreadySegmented(scanId))
      else
        var sim := SimulateTumorSegmentation(scan.filePath, voxels, token);
        var g := Segmentation(segId, scanId, sim.maskPath, sim.volumeCc, sim.volumeMm3, sim.confidence,
                              TumorTraceMethod, sim.processingSeconds);
        var db' := db.(segmentations := db.segmentations + [g]);
        FirstAfterMisses(db.segmentations, g, scanId);
        Ok((db', ResponseOf(g)))
  }

  /** Appending a segmentation for a scan that has none makes it the scan's segmentation. */
  lemma FirstAfterMisses(segs: seq<Segmentation>, g: Segmentation, scanId: string)
    requires forall h :: h in segs ==> h.scanId != scanId
    requires g.scanId == scanId
    ensures FindSegmentation(Db([], [], segs + [g], []), scanId) == Some(g)
  {
    var db := Db([], [], segs + [g], []);
    var r := FindSegmentation(db, scanId);
    assert g in db.segmentations;
    assert r.Some?;
    assert r.value in segs + [g];
  }

  /** `process_segmentation` keeps at most one segmentation per scan. */
  lemma ProcessKeepsOneSegmentationPerScan(db: Db, scanId: string, segId: string, voxels: Option<nat>, token: string)
    requires OneSegmentationPerScan(db.segmentations)
    requires ProcessSegmentation(db, scanId, segId, voxels, token).Ok?
    ensures OneSegmentationPerScan(ProcessSegmentation(db, scanId, segId, voxels, token).value.0.segmentations)
  {
    var segs' := ProcessSegmentation(db, scanId, segId, voxels, token).value.0.segmentations;
    var n := |db.segmentations|;
    forall i, j | 0 <= i < j < |segs'|
      ensures segs'[i].scanId != segs'[j].scanId
    {
      if j == n {
        assert segs'[i] == db.segmentations[i];
        assert segs'[i] in db.segmentations;
      } else {
        assert segs'[i] == db.segmentations[i] && segs'[j] == db.segmentations[j];
      }
    }
  }

  /** A second `process_segmentation` of the same scan is refused and changes nothing. */
  lemma ProcessTwiceIsRefused(db: Db, scanId: string, segId: string, segId2: string, voxels: Option<nat>, voxels2: Option<nat>, token: string, token2: string)
    requires ProcessSegmentation(db, scanId, segId, voxels, token).Ok?
    ensures ProcessSegmentation(ProcessSegmentation(db, scanId, segId, voxels, token).value.0, scanId, segId2, voxels2, token2)
      == Err(AlreadySegmented(scanId))
  {
    var db' := ProcessSegmentation(db, scanId, segId, voxels, token).value.0;
    assert FindScan(db', scanId) == FindScan(db, scanId);
  }

  function SegmentationMissing(scanId: string): HttpError {
    HttpError(NotFound, "Segmentation not found for scan " + scanId)
  }

  /** `get_segmentation`: the scan's segmentation, or 404 when there is none. */
  function GetSegmentation(db: Db, scanId: string): (r: Result<SegmentationResponse>)
    ensures r.Err? <==> forall g :: g in db.segmentations ==> g.scanId != scanId
    ensures r.Err? ==> r.error == SegmentationMissing(scanId)
    ensures r.Ok? ==> exists g :: g in db.segmentations && g.scanId == scanId && r.value == ResponseOf(g)
  {
    match FindSegmentation(db, scanId)
    case None => Err(SegmentationMissing(scanId))
    case Some(g) => Ok(ResponseOf(g))
  }

  /** What `process_segmentation` answers is what `get_segmentation` then returns. */
  lemma ProcessThenGet(db: Db, scanId: string, segId: string, voxels: Option<nat>, token: string)
    requires ProcessSegmentation(db, scanId, segId, voxels, token).Ok?
    ensures var p := ProcessSegmentation(db, scanId, segId, voxels, token).value;
      GetSegmentation(p.0, scanId) == Ok(p.1)
  {
  }
}

=== FILE: seqs.dfy ===
/** Generic sequence queries: the WHERE, `.first()` and ORDER BY of the store's queries. */
module Seqs {
  import opened Outcomes

  /** The elements of `xs` that satisfy `p`, in their original order (a WHERE clause). */
  function Filter<T(==,!new)>(xs: seq<T>, p: T -> bool): (r: seq<T>)
    ensures |r| <= |xs|
    ensures forall x :: x in r <==> x in xs && p(x)
    ensures forall x :: p(x) ==> multiset(r)[x] == multiset(xs)[x]
    ensures forall x :: !p(x) ==> multiset(r)[x] == 0
    decreases |xs|
  {
    if |xs| == 0 then []
    else
      assert xs == [xs[0]] + xs[1..];
      (if p(xs[0]) then [xs[0]] else []) + Filter(xs[1..], p)
  }

  /** The position of the first element that satisfies `p`, if any. */
  function FirstIndex<T>(xs: seq<T>, p: T -> bool): (r: Option<nat>)
    ensures r.Some? ==> r.value < |xs| && p(xs[r.value])
    ensures r.Some? ==> forall j :: 0 <= j < r.value ==> !p(xs[j])
    ensures r.None? ==> forall j :: 0 <= j < |xs| ==> !p(xs[j])
    decreases |xs|
  {
    if |xs| == 0 then None
    else if p(xs[0]) then Some(0)
    else
      match FirstIndex(xs[1..], p)
      case None => None
      case Some(i) => Some(i + 1)
  }

  /** The first element that satisfies `p` (a query ending in `.first()`). */
  function First<T(!new)>(xs: seq<T>, p: T -> bool): (r: Option<T>)
    ensures r.Some? ==> r.value in xs && p(r.value)
    ensures r.None? <==> forall x :: x in xs ==> !p(x)
  {
    match FirstIndex(xs, p)
    case None => None
    case Some(i) => Some(xs[i])
  }

  /** `xs` is in non-decreasing order of `key`. */
  ghost predicate SortedBy<T>(xs: seq<T>, key: T -> int) {
    forall i, j :: 0 <= i < j < |xs| ==> key(xs[i]) <= key(xs[j])
  }

  /** Inserts `x` into the sorted `xs`, keeping it sorted; the result starts with `x` or
      with the old first element. */
  function Insert<T(==)>(x: T, xs: seq<T>, key: T -> int): (r: seq<T>)
    requires SortedBy(xs, key)
    ensures SortedBy(r, key)
    ensures multiset(r) == multiset(xs) + multiset{x}
    ensures |r| == |xs| + 1
    ensures r[0] == x || (|xs| > 0 && r[0] == xs[0])
    decreases |xs|
  {
    if |xs| == 0 || key(x) <= key(xs[0]) then [x] + xs
    else
      var rest := Insert(x, xs[1..], key);
      var r := [xs[0]] + rest;
      assert SortedBy(r, key) by {
        assert key(xs[0]) <= key(rest[0]);
        forall i, j | 0 <= i < j < |r|
          ensures key(r[i]) <= key(r[j])
        {
          assert r[j] == rest[j - 1];
          if i == 0 {
            assert key(rest[0]) <= key(rest[j - 1]);
          } else {
            assert r[i] == rest[i - 1];
          }
        }
      }
      assert multiset(xs) == multiset{xs[0]} + multiset(xs[1..]) by {
        assert xs == [xs[0]] + xs[1..];
      }
      r
  }

  /** `xs` ordered by ascending `key` (an ORDER BY); the order of equal keys is unspecified. */
  function SortBy<T(==,!new)>(xs: seq<T>, key: T -> int): (r: seq<T>)
    ensures SortedBy(r, key)
    ensures multiset(r) == multiset(xs)
    ensures |r| == |xs|
    ensures forall x :: x in r <==> x in xs
    decreases |xs|
  {
    if |xs| == 0 then []
    else
      assert xs == [xs[0]] + xs[1..];
      var r := Insert(xs[0], SortBy(xs[1..], key), key);
      assert |r| == |multiset(r)|;
      assert forall x :: x in r <==> x in multiset(r);
      r
  }
}

=== FILE: text.dfy ===
/** The string operations the handlers rely on: ASCII case mapping, `str.endswith`,
    `str.rfind` and the extension half of `os.path.splitext` (POSIX flavour). */
module Text {

  function LowerChar(c: char): char {
    if 'A' <= c <= 'Z' then (c as int + 32) as char else c
  }

  function UpperChar(c: char): char {
    if 'a' <= c <= 'z' then (c as int - 32) as char else c
  }

  /** `s.lower()`, on the ASCII letters. */
  function Lower(s: string): (r: string)
    ensures |r| == |s|
    ensures forall i :: 0 <= i < |s| ==> r[i] == LowerChar(s[i])
    ensures forall i :: 0 <= i < |r| ==> !('A' <= r[i] <= 'Z')
  {
    if |s| == 0 then [] else [LowerChar(s[0])] + Lower(s[1..])
  }

  /** `s.upper()`, on the ASCII letters. */
  function Upper(s: string): (r: string)
    ensures |r| == |s|
    ensures forall i :: 0 <= i < |s| ==> r[i] == UpperChar(s[i])
    ensures forall i :: 0 <= i < |r| ==> !('a' <= r[i] <= 'z')
  {
    if |s| == 0 then [] else [UpperChar(s[0])] + Upper(s[1..])
  }

  /** `s.endswith(suffix)`. */
  predicate EndsWith(s: string, suffix: string) {
    |suffix| <= |s| && s[|s| - |suffix|..] == suffix
  }

  /** `s.rfind(c)`: the last position holding `c`, or -1. */
  function LastIndexOf(s: string, c: char): (r: int)
    ensures -1 <= r < |s|
    ensures r >= 0 ==> s[r] == c
    ensures forall j :: r < j < |s| ==> s[j] != c
    decreases |s|
  {
    if |s| == 0 then -1
    else if s[|s| - 1] == c then |s| - 1
    else LastIndexOf(s[..|s| - 1], c)
  }

  /** The second half of `os.path.splitext(p)` on POSIX: from the last '.' of the final
      path component, provided that component has a non-dot character before that '.';
      otherwise empty. */
  function Extension(p: string): (e: string)
    ensures e == [] || (EndsWith(p, e) && e[0] == '.')
    ensures forall k :: 1 <= k < |e| ==> e[k] != '.' && e[k] != '/'
    ensures e != [] ==> |p| - |e| == LastIndexOf(p, '.')
    ensures e != [] <==> exists k, d :: LastIndexOf(p, '/') < k < d < |p| && p[k] != '.' && p[d] == '.'
  {
    var sep := LastIndexOf(p, '/');
    var dot := LastIndexOf(p, '.');
    if dot > sep && exists k :: sep < k < dot && p[k] != '.' then p[dot..]
    else
      assert forall k, d :: sep < k < d < |p| && p[d] == '.' ==> p[k] == '.' by {
        forall k, d | sep < k < d < |p| && p[d] == '.' ensures p[k] == '.' {
          assert d <= dot;
        }
      }
      []
  }

  /** Upper- and lower-casing agree up to case: lowering an upper-cased string
      gives the lowered string. */
  lemma {:induction false} LowerOfUpper(s: string)
    ensures Lower(Upper(s)) == Lower(s)
  {
    if |s| > 0 {
      LowerOfUpper(s[1..]);
      assert Upper(s)[1..] == Upper(s[1..]);
    }
  }
  
  /** Lowering is idempotent. */
  lemma LowerIdempotent(s: string)
    ensures Lower(Lower(s)) == Lower(s)
  {
  }

  /** Splitting off the extension of `stem + ext` gives back `ext`, whenever `ext` is a
      '.' followed by no further '.' or '/', and the last component of `stem` has a
      character other than '.'. */
  lemma ExtensionOfJoin(stem: string, ext: string, k: nat)
    requires |ext| >= 1 && ext[0] == '.'
    requires forall i :: 1 <= i < |ext| ==> ext[i] != '.' && ext[i] != '/'
    requires k < |stem| && stem[k] != '.' && stem[k] != '/'
    requires forall i :: k < i < |stem| ==> stem[i] != '/'
    ensures Extension(stem + ext) == ext
  {
    var p := stem + ext;
    var dot := LastIndexOf(p, '.');
    var sep := LastIndexOf(p, '/');
    assert p[|stem|] == '.';
    assert dot == |stem|;
    assert sep < k;
    assert p[k] == stem[k];
    assert p[dot..] == ext;
  }
}

=== FILE: trend.dfy ===
/** The tumour trend: the volume-over-time series of one patient's segmented scans
    (`calculate_tumor_trend`). */
module Trend {
  import opened Seqs
  import opened Records

  /** One entry of the trend: a scan joined with its segmentation. */
  datatype TrendPoint = TrendPoint(
    scanDate: Time,
    scanId: string,
    volumeCc: real,
    volumeMm3: real,
    confidence: real,
    scanType: string)

  function PointOf(s: Scan, g: Segmentation): TrendPoint {
    TrendPoint(s.scanDate, s.id, g.volumeCc, g.volumeMm3, g.confidence, s.scanType)
  }

  /** `t` is a row of the inner join of `scans` with `segs` on the scan id, restricted to
      scans whose patient column equals `key`. */
  ghost predicate Joined(scans: seq<Scan>, segs: seq<Segmentation>, key: string, t: TrendPoint) {
    exists s, g :: s in scans && g in segs && s.patientKey == key && g.scanId == s.id && t == PointOf(s, g)
  }

  /** The join rows contributed by the one scan `s`: a row per segmentation of `s`. */
  function RowsOf(s: Scan, segs: seq<Segmentation>): (r: seq<TrendPoint>)
    ensures forall t :: t in r <==> exists g :: g in segs && g.scanId == s.id && t == PointOf(s, g)
    decreases |segs|
  {
    if |segs| == 0 then []
    else
      assert forall g :: g in segs ==> g == segs[0] || g in segs[1..];
      (if segs[0].scanId == s.id then [PointOf(s, segs[0])] else []) + RowsOf(s, segs[1..])
  }

  /** Scan `s` has a segmentation in `segs`. */
  ghost predicate Segmented(s: Scan, segs: seq<Segmentation>) {
    exists g :: g in segs && g.scanId == s.id
  }

  /** The rows of the join, scan by scan in store order (the order before ORDER BY). */
  function JoinRows(scans: seq<Scan>, segs: seq<Segmentation>, key: string): (r: seq<TrendPoint>)
    ensures forall t :: t in r <==> Joined(scans, segs, key, t)
    decreases |scans|
  {
    if |scans| == 0 then []
    else
      assert forall s :: s in scans ==> s == scans[0] || s in scans[1..];
      (if scans[0].patientKey == key then RowsOf(scans[0], segs) else []) + JoinRows(scans[1..], segs, key)
  }

  /** A scan contributes exactly as many join rows as it has segmentations. */
  lemma {:induction false} RowsPerSegmentation(s: Scan, segs: seq<Segmentation>)
    ensures |RowsOf(s, segs)| == |Filter(segs, (g: Segmentation) => g.scanId == s.id)|
    decreases |segs|
  {
    if |segs| > 0 {
      RowsPerSegmentation(s, segs[1..]);
    }
  }

  /** With at most one segmentation per scan, a scan contributes one join row when it is
      segmented and none otherwise. */
  lemma {:induction false} RowsOfSingle(s: Scan, segs: seq<Segmentation>)
    requires OneSegmentationPerScan(segs)
    ensures |RowsOf(s, segs)| == if Segmented(s, segs) then 1 else 0
    decreases |segs|
  {
    if |segs| > 0 {
      OneSegmentationPerScanTail(segs);
      RowsOfSingle(s, segs[1..]);
      if segs[0].scanId == s.id {
        assert segs[0] in segs;
        assert !Segmented(s, segs[1..]);
      } else if Segmented(s, segs) {
        var g :| g in segs && g.scanId == s.id;
        assert g in segs[1..];
      }
    }
  }

  /** The invariant holds for the tail, and no later segmentation shares the first one's scan. */
  lemma OneSegmentationPerScanTail(segs: seq<Segmentation>)
    requires |segs| > 0 && OneSegmentationPerScan(segs)
    ensures OneSegmentationPerScan(segs[1..])
    ensures forall g :: g in segs[1..] ==> g.scanId != segs[0].scanId
  {
    forall g | g in segs[1..] ensures g.scanId != segs[0].scanId {
      var j :| 0 <= j < |segs[1..]| && segs[1..][j] == g;
      assert segs[j + 1] == g;
    }
  }

  /** With at most one segmentation per scan, the join has exactly one row per segmented
      scan under `key`. */
  lemma {:induction false} JoinRowsPerSegmentedScan(scans: seq<Scan>, segs: seq<Segmentation>, key: string)
    requires OneSegmentationPerScan(segs)
    ensures |JoinRows(scans, segs, key)| == |Filter(scans, (s: Scan) => s.patientKey == key && Segmented(s, segs))|
    decreases |scans|
  {
    if |scans| > 0 {
      RowsOfSingle(scans[0], segs);
      JoinRowsPerSegmentedScan(scans[1..], segs, key);
    }
  }

  /** The trend of the scans whose patient column equals `key`: exactly the segmented
      scans, in non-decreasing scan-date order, and empty (not an error) when there are
      none. Ties in scan date come in no particular order. */
  function CalculateTumorTrend(db: Db, key: string): (r: seq<TrendPoint>)
    ensures forall t :: t in r <==> Joined(db.scans, db.segmentations, key, t)
    ensures forall i, j :: 0 <= i < j < |r| ==> r[i].scanDate <= r[j].scanDate
    ensures multiset(r) == multiset(JoinRows(db.scans, db.segmentations, key))
  {
    var r := SortBy(JoinRows(db.scans, db.segmentations, key), (t: TrendPoint) => t.scanDate);
    r
  }

  /** The trend is empty exactly when none of the patient's scans has a segmentation. */
  lemma TrendEmptyIffNothingSegmented(db: Db, key: string)
    ensures CalculateTumorTrend(db, key) == []
        <==> forall s, g :: s in db.scans && g in db.segmentations && s.patientKey == key ==> g.scanId != s.id
  {
    var r := CalculateTumorTrend(db, key);
    if r != [] {
      assert r[0] in r;
    }
    forall s, g | s in db.scans && g in db.segmentations && s.patientKey == key && g.scanId == s.id
      ensures r != []
    {
      assert Joined(db.scans, db.segmentations, key, PointOf(s, g));
    }
  }
}

=== FILE: upload.dfy ===
/** The multi-modality upload handler (`upload_image`): its checks, in order, and the
    scan record it stores. */
module UploadEndpoint {
  import opened Outcomes
  import opened Text
  import opened Records
  import opened MedicalFormats

  const UploadDir: string := "data/uploads"

  /** The form fields of an upload; the scan date is taken as already parsed. */
  datatype UploadForm = UploadForm(
    filename: string,
    patientId: string,
    scanDate: Time,
    scanType: string,
    modality: string,
    bodyPart: string)

  datatype UploadReceipt = UploadReceipt(filename: string, status: string, scanId: string, message: string)

  const NoFilename: HttpError := HttpError(BadRequest, "No filename provided")
  const UnsupportedModality: HttpError :=
    HttpError(BadRequest, "Unsupported modality. Supported modalities: MRI, CT, XRAY")
  const XrayFormatError: HttpError :=
    HttpError(BadRequest, "Unsupported file format for X-ray. Supported formats: .dcm, .dicom, .jpg, .jpeg, .png, .tiff, .tif")
  const VolumeFormatError: HttpError :=
    HttpError(BadRequest, "Unsupported file format. Supported formats: .nii.gz, .nii, .dcm, .dicom, .mha, .mhd")

  /** Where an upload is written: the upload directory, the random `token`, and the
      stored extension of the original name. */
  function StoredPath(token: string, filename: string): (path: string)
    ensures EndsWith(path, StoredExtension(filename))
  {
    var path := UploadDir + "/" + token + StoredExtension(filename);
    assert path[|path| - |StoredExtension(filename)|..] == StoredExtension(filename);
    path
  }

  /** `upload_image`. The checks run in order (no file name, unsupported modality,
      unsupported format, unknown patient), the first failing one decides the error,
      and nothing is stored unless all pass. Then one scan is appended, keyed by the
      patient's internal id, with the upper-cased modality; `scanId`, `token` and
      `fileSize` stand for the generated id, the random file name and the written size. */
  function UploadImage(db: Db, form: UploadForm, scanId: string, token: string, fileSize: int)
    : (r: Result<(Db, UploadReceipt)>)
    ensures form.filename == [] ==> r == Err(NoFilename)
    ensures form.filename != [] && ParseModality(form.modality).None? ==> r == Err(UnsupportedModality)
    ensures form.filename != [] && ParseModality(form.modality).Some? && !ValidateForModality(form.filename, form.modality)
      ==> r == Err(if Upper(form.modality) == "XRAY" then XrayFormatError else VolumeFormatError)
    ensures form.filename != [] && ValidateForModality(form.filename, form.modality) && FindPatient(db, form.patientId).None?
      ==> r == Err(PatientNotFound(form.patientId))
    ensures r.Ok? <==>
      form.filename != [] && ValidateForModality(form.filename, form.modality) && FindPatient(db, form.patientId).Some?
    ensures r.Ok? ==>
      var db' := r.value.0;
      && db'.patients == db.patients && db'.segmentations == db.segmentations && db'.alerts == db.alerts
      && |db'.scans| == |db.scans| + 1 && db'.scans[..|db.scans|] == db.scans
      && db'.scans[|db.scans|].id == scanId
      && db'.scans[|db.scans|].patientKey == FindPatient(db, form.patientId).value.id
      && db'.scans[|db.scans|].modality == Upper(form.modality)
      && db'.scans[|db.scans|].scanDate == form.scanDate
      && EndsWith(db'.scans[|db.scans|].filePath, StoredExtension(form.filename))
    ensures r.Ok? ==> r.value.1 == UploadReceipt(form.filename, "uploaded", scanId, form.modality + " scan uploaded successfully")
  {
    if form.filename == [] then Err(NoFilename)
    else if ParseModality(form.modality).None? then Err(UnsupportedModality)
    else if !ValidateForModality(form.filename, form.modality) then
      Err(if Upper(form.modality) == "XRAY" then XrayFormatError else VolumeFormatError)
    else
      match FindPatient(db, form.patientId)
      case None => Err(PatientNotFound(form.patientId))
      case Some(p) =>
        var scan := Scan(scanId, p.id, form.scanDate, form.scanType, StoredPath(token, form.filename),
                         fileSize, Upper(form.modality), form.bodyPart);
        Ok((db.(scans := db.scans + [scan]),
            UploadReceipt(form.filename, "uploaded", scanId, form.modality + " scan uploaded successfully")))
  }

  /** The modality an upload stores is always one of the canonical names "MRI", "CT",
      "XRAY", whatever case the form used. */
  lemma StoredModalityIsCanonical(db: Db, form: UploadForm, scanId: string, token: string, fileSize: int)
    requires UploadImage(db, form, scanId, token, fileSize).Ok?
    ensures var s := UploadImage(db, form, scanId, token, fileSize).value.0.scans[|db.scans|];
      && ParseModality(s.modality).Some?
      && s.modality == ModalityName(ParseModality(form.modality).value)
  {
    var s := UploadImage(db, form, scanId, token, fileSize).value.0.scans[|db.scans|];
    UpperIdempotent(form.modality);
  }

  /** Upper-casing is idempotent. */
  lemma {:induction false} UpperIdempotent(s: string)
    ensures Upper(Upper(s)) == Upper(s)
  {
    if |s| > 0 {
      UpperIdempotent(s[1..]);
      assert Upper(s)[1..] == Upper(s[1..]);
    }
  }
}
